=== FILE: README.md ===
# The mal reader, printer and step-2 evaluator, in Dafny

This project models the core of the JavaScript implementation of mal
("Make a Lisp"): the tokenizer and reader that turn source text into forms,
the printer that turns forms back into text, and the minimal evaluator of
step 2, which resolves the arithmetic symbols `+`, `-`, `*` and `/` and
applies non-empty lists.

- `types.dfy` (module `Types`): tokens (text plus source offset), the
  immutable list builder `MalList` with `append`, `begin` and `end`, the
  `Form` datatype shared by all stages, primitives, and the errors that abort
  a read or an evaluation.
- `lexer.dfy` (module `Lexer`): the tokenizer's global regular expression
  written out as a scanner. Each match skips whitespace and commas, then takes
  the first alternative that matches: `~@`, a single structural character, a
  double-quoted string literal, a `;` comment, or a run of ordinary
  characters. A match that consumes nothing ends the scan.
- `reader.dfy` (module `Reader`): the token cursor, `readForm`, `readList`,
  `readAtom` and `readString`, with a bracket-depth reference definition
  that says exactly when reading succeeds and where it stops.
- `printer.dfy` (module `Printer`): `printObject` and the string encoder,
  proved against a character-by-character escaping function and its
  inverse.
- `eval.dfy` (module `Eval`): `replEnv`, `EVAL`, `evalAST` and `rep`.
- `roundtrip.dfy` (module `RoundTrip`): printing and reading back. For trees
  of lists and plain atoms, the printed text tokenizes into the tree's own
  token texts. Reading that text gives back a tree of the same shape, and
  printing it again reproduces the text.

## Model

| member | source | states |
|---|---|---|
| `Types.MalList.Append` | node/reader.js:24-26 | the new list has the old members followed by the appended form, and keeps both delimiters |
| `Types.MalList.Begin` | node/reader.js:28-30 | only the opening token changes: it becomes the given token |
| `Types.MalList.Close` | node/reader.js:32-34 | only the closing token changes: it becomes the given token |
| `Lexer.SkipSeparators` | node/reader.js:64 | the `[\s,]*` prefix: everything skipped is whitespace or a comma, and the scan stops at the end or at the first other character |
| `Lexer.RunEnd` | node/reader.js:64 | the last alternative is greedy: it takes every ordinary character and stops at the end or at the first excluded one |
| `Lexer.LineEnd` | node/reader.js:64 | a comment runs up to, not including, the first line terminator or the end of input |
| `Lexer.StringBodyEnd` | node/reader.js:64 | the string body is a well-formed sequence of escapes and plain characters, and it stops only at the end, at a `"`, or at a backslash that has nothing escapable after it |
| `Lexer.StringBodyEndAtQuote` | node/reader.js:64 | when a well-formed body is followed by `"`, the body ends exactly at that quote |
| `Lexer.TokenEnd` | node/reader.js:64 | the capture ends within the input, and it is empty exactly at the end of input, at a separator, or at a `"` that opens no complete string literal |
| `Lexer.TokenEndShape` | node/reader.js:64 | the captured text always has the shape of one of the five alternatives, and a lone `~` is captured only when no `@` follows it |
| `Lexer.Tokenize` | node/reader.js:63-69 | the tokens of a whole text satisfy the scan's promise stated for `Lexer.TokenizeScanned` |
| `Lexer.TokenizeScanned` | node/reader.js:63-69 | the loop of `tokenize`, from any position: the tokens lie in source order and do not overlap, with only separators between them. Each token holds the exact source text at its offset, that text is exactly what the pattern captures there, and none starts with a separator. Only the last may be empty, and an empty token always comes after at least one skipped separator, since a match that consumes nothing ends the loop. Scanning stops only at the end of input or at the opening quote of a string literal that is never closed |
| `Lexer.ScannedUnique` | node/reader.js:63-69 | the scan's promise has exactly one solution from any position: two token sequences that both satisfy it are equal |
| `Lexer.TokenizeUnique` | node/reader.js:63-69 | so the tokens of `tokenize` are the only sequence satisfying the promise for the whole text, which makes that promise a full description of the scan |
| `Lexer.FirstTokenPlaced` | node/reader.js:54-56 | a token's offset is the match position plus the length of the skipped separators, so its text sits exactly at that offset |
| `Lexer.TokenOfMatch` | node/reader.js:45-61 | a token's fields as the `Token` class derives them from its match: the text is the capture, the offset is the match position plus the whole match's length less the capture's, and the length and end follow from the capture |
| `Lexer.EmptyMatch` | node/reader.js:66 | a match consumes nothing only at the end of input or at an unclosed string literal, so stopping there gives a complete scan |
| `Lexer.EmptyTokenEndsScan` | node/reader.js:66 | once a capture is empty, the scan from there finds no further token, so an empty token can only be the last |
| `Lexer.ScanStep` | node/reader.js:66-68 | one step of the loop: a match that consumes something pushes its token in front of the rest of the scan |
| `Reader.Cursor.Next` | node/reader.js:6-8 | the same tokens, one position further on, so the current token becomes the following one, or none past the end |
| `Reader.Cursor.Current` | node/reader.js:10-12 | there is a current token exactly when the index is inside the tokens, and it is the token at the index |
| `Reader.ReadForm` | node/reader.js:78-84 | the only failure is running out of tokens. A success consumes at least one token of the same sequence. The form is a list exactly when the current token is `(`, and otherwise it is the atom of that one token |
| `Reader.ReadAtom` | node/reader.js:97-102 | with a token under the cursor it gives that token's atom and moves the cursor one step on; past the end it fails |
| `Reader.ReadList` | node/reader.js:86-95 | a list opened by the current token and closed by the `)` just before the returned cursor; it spans at least two tokens |
| `Reader.ReadMembers` | node/reader.js:89-94 | the loop keeps the members read so far as a prefix, stops one past a `)` and closes the list with that token; it fails only by running out of tokens |
| `Reader.ReadString` | node/reader.js:72-76 | reading succeeds exactly when the text has a token and, if that token is `(`, the brackets after it close. A failure is always `NoToken`. When the first token is not `(`, the result is its atom |
| `Reader.MatchingClose` | node/reader.js:86-95 | bracket-depth reference: it finds the `)` that closes the current nesting level, if any |
| `Reader.ReadMembersMatchesBrackets` | node/reader.js:89-94 | the member loop succeeds exactly when the brackets from the cursor close one level, and it stops one past that matching `)` |
| `Reader.ReadFormMatchesBrackets` | node/reader.js:78-84 | reading a form fails past the end, reads one atom for a token other than `(`, and for `(` succeeds exactly when the brackets balance, stopping one past the matching `)` |
| `Reader.ReadFormSourceTokens` | node/reader.js:78-102 | a form read holds exactly the tokens consumed, in order: delimiters, atoms and nested lists |
| `Reader.ReadMembersSourceTokens` | node/reader.js:86-95 | the list closed by the member loop holds exactly the tokens from its opening `(` to its closing `)` |
| `Reader.ReadFormIgnoresTrailing` | node/reader.js:78-102 | appending tokens after a successful read changes neither the form nor where reading stops |
| `Reader.ReadMembersIgnoresTrailing` | node/reader.js:89-94 | the member loop likewise never looks past the `)` it stops at |
| `Reader.ReadStringPrefix` | node/reader.js:72-76 | the form read from a text is built from a prefix of the text's tokens, and anything after the first form is ignored |
| `Printer.PrintObject` | node/printer.js:1-13 | only a primitive function value prints as `undefined` (None). A list or vector prints as its members' texts joined by spaces inside its own delimiters, and a hash map as its `key value` entries joined the same way inside braces. A string prints as its text with every character escaped in order, inside quotes, so the interior decodes back to the string. Atoms, symbols and integers print their `string` property |
| `Printer.JoinSpacedAppend` | node/printer.js:3 | the laws of `join(' ')` that determine it: no parts join to the empty text, one part joins to itself, and joining two non-empty runs of parts puts exactly one space between their joins |
| `Printer.PrintAll` | node/printer.js:3 | one text per member, in member order, as `join` writes it: an `undefined` member becomes the empty text |
| `Printer.PrintEntries` | node/printer.js:7 | one `key value` text per entry, in key order |
| `Printer.NextHit` | node/printer.js:16 | the search finds the first `"`, newline or backslash at or after the position, and reports the end when there is none |
| `Printer.EncodeFrom` | node/printer.js:19-32 | the encoder's loop appends the character-by-character escaping of the rest of the string to what it has built |
| `Printer.EncodeString` | node/printer.js:15-34 | the result is a quote, every character escaped in order, then a quote |
| `Printer.EncodedLength` | node/printer.js:22-33 | encoding adds two quotes plus one character per `"`, newline or backslash |
| `Printer.EncodeIdentity` | node/printer.js:15-34 | encoding only adds the quotes exactly when the string has no `"`, newline or backslash |
| `Printer.UnescapeEscapeAll` | node/printer.js:22-28 | the escaping is lossless: decoding `\"`, `\n` and `\\` restores the original string |
| `Printer.EscapedInterior` | node/printer.js:22-29 | an encoded interior has no raw newline, is a well-formed string-literal body for the tokenizer, and every `"` in it follows a backslash |
| `Printer.EncodedLexesAsOneToken` | node/printer.js:33 | a printed string tokenizes back as a single string-literal token covering all of it |
| `Eval.Apply` | node/step2_eval.js:7-12 | a primitive other than `/` succeeds exactly on two integer arguments and gives an integer; with fewer than two it fails, and extra arguments are ignored |
| `Eval.ApplyArith` | node/step2_eval.js:8-10 | `+`, `-` and `*` are bound to addition, subtraction and multiplication of the two arguments' values |
| `Eval.Eval` | node/step2_eval.js:19-35 | a form that is neither a list nor a symbol evaluates to itself. A symbol evaluates to its binding, or fails as unbound. The empty list evaluates to itself |
| `Eval.EvalAst` | node/step2_eval.js:45-57 | a list evaluates to the list of its evaluated members with the same delimiters, or to the first failure. Other non-symbols are returned unchanged |
| `Eval.EvalMembers` | node/step2_eval.js:53 | on success there is one value per member, in order, each that member's evaluation. On failure the error is that of the first failing member, and every member before it succeeded |
| `Eval.EvalMembersAllOk` | node/step2_eval.js:53 | conversely, when every member evaluates, the mapping succeeds with exactly those values |
| `Eval.EvalMembersFirstFailure` | node/step2_eval.js:53 | conversely, the first failing member's error is the mapping's error |
| `Eval.EvalFirstFailure` | node/step2_eval.js:27 | a non-empty list whose members fail evaluates to the error of the first failing member |
| `Eval.EvalApplies` | node/step2_eval.js:27-32 | a non-empty list whose evaluated head is a primitive evaluates to that primitive applied to the remaining values |
| `Eval.EvalNotCallable` | node/step2_eval.js:28-31 | a non-empty list whose evaluated head is not a primitive fails, naming the rendered head |
| `Eval.EvalArith` | node/step2_eval.js:19-35 | every nested arithmetic expression of integers and `+`, `-`, `*` evaluates to its arithmetic value |
| `Eval.EvalIgnoresEnvironment` | node/step2_eval.js:19-35 | the environment argument never changes the result: evaluation always resolves symbols in `replEnv` |
| `Eval.EvalYieldsValue` | node/step2_eval.js:19-57 | a successful evaluation never yields a symbol, and yields a list only when it is empty |
| `Eval.UnboundSymbolIsReachable` | node/step2_eval.js:46-51 | an unbound-symbol failure names a symbol that occurs in the form and is not bound in `replEnv` |
| `Eval.EvalOkSymbolsBound` | node/step2_eval.js:46-53 | when evaluation succeeds, every symbol it reaches is bound in `replEnv` |
| `Eval.Rep` | node/step2_eval.js:41-43 | a line succeeds exactly when its form reads and evaluates, and then its output is the printed value, with `undefined` for a value that has no printed text; that rendering is the one the template literal at node/step2_eval.js:74 applies to `rep`'s result, which the model folds into `rep`. A failed read gives `NoToken`. A failed evaluation gives that evaluation's error |
| `Types.StringProperty` | node/printer.js:10-11 | only atoms, symbols and integers have a `string` property: an atom its token text, a symbol its name, and an integer a decimal text that denotes its value |
| `RoundTrip.PrintedText` | node/printer.js:1-13 | a tree of lists and plain atoms prints as its atoms' texts, joined by single spaces inside parentheses |
| `RoundTrip.TokenizePrinted` | node/reader.js:63-69 | the tokens of a printed plain tree are exactly the tree's token texts in order: its atoms and its parentheses |
| `RoundTrip.PrintReadShape` | node/reader.js:72-102 | reading what was printed succeeds and gives back a tree of the same shape and atom texts |
| `RoundTrip.PrintReadPrint` | node/printer.js:1-13 | printing what was read from a printed plain tree reproduces the printed text |
| `RoundTrip.PrintReadString` | node/printer.js:8-9 | a printed string value reads back as one atom whose token is the whole encoded text |

## Left out

- The read–eval–print loops (`readline`, prompts, the environment variables that switch raw and backtrace output) are I/O. Only one line's `rep` is modelled.
- The effection REPL and the step-0 and step-1 drivers are not part of this model.
- The source's `throw`s become `Err` values. The thrown message texts are abstracted into the `Error` constructors: `NoToken`, `UnboundSymbol`, `NotCallable`, `MissingArgument`, `NotANumber` and `Unmodelled`.
- `Reader.ReadAtom`: past the last token the source's `readAtom` does not fail: it returns an atom of an `undefined` token and a cursor one further on. The model fails with `NoToken` there instead. `readForm` never reaches that case, because it reads the current token's `string` first and throws.
- Reader failures are all `NoToken`. The source throws a `TypeError` when it reads `.string` of an undefined current token, both past the end of the tokens and in an unterminated list.
- `Eval.Apply`: JavaScript numbers are doubles, and the primitives read each argument's `value` property without checking its kind. A form with no `value` (an atom, a symbol, a list) makes the result `NaN` rather than an error. A string's `value` is its text, so `+` concatenates (`"a" + 1` is the text `a1`), while `-` and `*` convert numeric text (`"5" - 2` is 3) and give `NaN` for other text. The model uses unbounded integers. It fails with `NotANumber` on any argument that is not an integer, strings included, and with `MissingArgument` on fewer than two.
- `Eval.Apply`: `/` stays bound in the environment, but applying it gives `Unmodelled("/")`, because floating-point division is not modelled.
- `Eval.Eval`: the contract covers only non-list forms and the empty list. Non-empty lists are covered by the lemmas `Eval.EvalApplies`, `Eval.EvalNotCallable` and `Eval.EvalFirstFailure`.
- The step-2 evaluator uses list operations (`isEmpty`, `cons`, `cdr`, `map`) and a `MalInt` class that node/reader.js does not define. The model gives them their evident meanings: no members, the first member, the remaining members, and the members mapped with the delimiters kept.
- Symbol lookup uses a plain JavaScript object, so names inherited from its prototype (such as `toString`) would resolve. The model's environment holds only the four bindings.
- Atoms: the reader produces only token atoms, and the printer reads a `string` property that an atom object lacks. The model treats an atom's printed text as its token text. The same property names the callee in the not-callable error (node/step2_eval.js:30), so the source reports `(1 2)` as `'undefined' does not appear to be a function`, while the model names the token there: `Eval.EvalNotCallable` gives `NotCallable("1")`. Symbols, integers and strings still appear as their own forms, because the printer and the evaluator handle them.
- Primitive function values have no `string` property, so `printObject` returns `undefined` for them, and the model returns `None`. Where that result lands decides the text: `join` writes it as the empty text inside a list or vector, while a template literal writes `undefined`, both in a hash-map entry and in the line the REPL writes.
- Hash maps are modelled as their entries in key order. Key lookup and the map's own ordering rules are not modelled.
- `evalAST` maps only lists. Vectors and hash maps are returned unchanged, as the code does.
- The tokenizer takes the first alternative that matches, as a JavaScript regular expression does.
- Strings are sequences of Dafny characters, not UTF-16 code units. Offsets count characters.
- The printer ignores any options object: the `printReadably` flag passed by the step-1 driver has no effect, and the model takes no options.
- `Types.StringProperty`: an integer's `string` is taken to be its decimal text. The `MalInt` class is not part of this model.
- `Eval.Rep`: the source passes its environment to the printer, which ignores it. The model accepts and ignores an environment in the same way.
- `RoundTrip.PrintReadShape`: the round trip covers trees of lists and plain run atoms only. Other atoms may lex differently: comments, `~@`, string literals, and text with structural characters. The round trip compares shape (atom texts and nesting) rather than whole forms, because reading attaches new offsets and delimiter tokens.

=== FILE: eval.dfy ===
/** The minimal evaluator: a fixed environment binding `+`, `-`, `*` and `/`
    to primitives, `Eval`, which applies non-empty lists, and `EvalAst`, which
    resolves symbols and evaluates the members of lists. The environment
    argument of `Eval` is never consulted: symbols are always looked up in
    `ReplEnv`, and members are evaluated with `ReplEnv` passed along. */
module Eval {
  import opened Types
  import Reader
  import Printer

  type Env = map<string, Prim>

  /** The only bindings symbols are resolved against. */
  const ReplEnv: Env := map["+" := Add, "-" := Sub, "*" := Mul, "/" := Div]

  /** Applies a primitive to its evaluated arguments. The first two arguments
      are used and any further ones are ignored. */
  function Apply(op: Prim, args: seq<Form>): (r: Result<Form>)
    ensures r.Ok? <==> |args| >= 2 && args[0].Int? && args[1].Int? && op != Div
    ensures r.Ok? ==> r.value.Int?
    ensures |args| < 2 ==> r == Err(MissingArgument)
    ensures |args| >= 2 ==> r == Apply(op, args[..2])
  {
    if |args| < 2 then Err(MissingArgument)
    else if !args[0].Int? || !args[1].Int? then Err(NotANumber)
    else
      var a, b := args[0].value, args[1].value;
      match op
      case Add => Ok(Int(a + b))
      case Sub => Ok(Int(a - b))
      case Mul => Ok(Int(a * b))
      case Div => Err(Unmodelled("/"))
  }

  /** Evaluates a form. A non-list goes through `EvalAst`; the empty list is
      itself; a non-empty list has all its members evaluated, left to right,
      and then its evaluated head applied to the evaluated rest. */
  function Eval(form: Form, env: Env): (r: Result<Form>)
    decreases form, 2
    ensures !form.List? && !form.Sym? ==> r == Ok(form)
    ensures form.Sym? && form.name in ReplEnv ==> r == Ok(Fn(ReplEnv[form.name]))
    ensures form.Sym? && form.name !in ReplEnv ==> r == Err(UnboundSymbol(form.name))
    ensures form.List? && |form.list.members| == 0 ==> r == Ok(form)
  {
    if !form.List? then EvalAst(form)
    else if |form.list.members| == 0 then Ok(form)
    else
      match EvalAst(form)
      case Err(e) => Err(e)
      case Ok(evaluated) =>
        var fn := evaluated.list.members[0];
        if !fn.Fn? then Err(NotCallable(Render(StringProperty(fn))))
        else Apply(fn.op, evaluated.list.members[1..])
  }

  /** Evaluates a form without applying it: a symbol to its binding in
      `ReplEnv`, a list to the list of its evaluated members, and any other
      form to itself. */
  function EvalAst(node: Form): (r: Result<Form>)
    decreases node, 1
    ensures node.List? ==>
      match EvalMembers(node.list.members)
      case Err(e) => r == Err(e)
      case Ok(vs) => r == Ok(List(MalList(vs, node.list.start, node.list.end)))
    ensures !node.List? && !node.Sym? ==> r == Ok(node)
  {
    match node
    case Sym(name) =>
      if name in ReplEnv then Ok(Fn(ReplEnv[name])) else Err(UnboundSymbol(name))
    case List(l) =>
      (match EvalMembers(l.members)
       case Err(e) => Err(e)
       case Ok(vs) => Ok(List(MalList(vs, l.start, l.end))))
    case _ => Ok(node)
  }

  /** Evaluates members left to right, stopping at the first failure. On
      success there is one result per member, in order; on failure the error
      is that of the first member whose evaluation fails. */
  function EvalMembers(ms: seq<Form>): (r: Result<seq<Form>>)
    decreases ms
    ensures r.Ok? ==> |r.value| == |ms| && forall i :: 0 <= i < |ms| ==> Eval(ms[i], ReplEnv) == Ok(r.value[i])
    ensures r.Err? ==> exists i :: (0 <= i < |ms| && Eval(ms[i], ReplEnv) == Err(r.error)
      && forall j :: 0 <= j < i ==> Eval(ms[j], ReplEnv).Ok?)
  {
    if ms == [] then Ok([])
    else
      match Eval(ms[0], ReplEnv)
      case Err(e) => Err(e)
      case Ok(v) =>
        match EvalMembers(ms[1..])
        case Err(e) => Err(e)
        case Ok(vs) => Ok([v] + vs)
  }

  /** One line through the read, evaluate and print steps. The source passes
      no environment to the evaluator (the environment argument goes to the
      printer, which ignores it); the result is nonetheless that of evaluating
      against `ReplEnv`. The line written is the printed value, where a value
      the printer leaves undefined is written as `undefined`. */
  function Rep(s: string, env: Env): (r: Result<string>)
    ensures r.Ok? ==>
      && Reader.ReadString(s).Ok?
      && Eval(Reader.ReadString(s).value, ReplEnv).Ok?
      && r.value == Render(Printer.PrintObject(Eval(Reader.ReadString(s).value, ReplEnv).value))
    ensures Reader.ReadString(s).Err? ==> r == Err(NoToken)
    ensures Reader.ReadString(s).Ok? && Eval(Reader.ReadString(s).value, ReplEnv).Ok? ==> r.Ok?
    ensures Reader.ReadString(s).Ok? && Eval(Reader.ReadString(s).value, ReplEnv).Err? ==>
      r == Err(Eval(Reader.ReadString(s).value, ReplEnv).error)
  {
    var form :- Reader.ReadString(s);
    EvalIgnoresEnvironment(form, map[]);
    var value :- Eval(form, map[]);
    Ok(Render(Printer.PrintObject(value)))
  }

  // ---------------------------------------------------------------------
  // Properties.

  /** The environment argument makes no difference. */
  lemma EvalIgnoresEnvironment(form: Form, env: Env)
    ensures Eval(form, env) == Eval(form, ReplEnv)
  {
  }

  /** Successful evaluation yields a value: never a symbol, and a list only
      when it is empty. */
  lemma EvalYieldsValue(form: Form, env: Env)
    requires Eval(form, env).Ok?
    ensures !Eval(form, env).value.Sym?
    ensures Eval(form, env).value.List? ==> Eval(form, env).value.list.members == []
  {
  }

  /** Members that all evaluate successfully evaluate, together, to the
      sequence of their values: the converse of `EvalMembers`' contract. */
  lemma {:induction false} EvalMembersAllOk(ms: seq<Form>, vs: seq<Form>)
    requires |vs| == |ms|
    requires forall i :: 0 <= i < |ms| ==> Eval(ms[i], ReplEnv) == Ok(vs[i])
    ensures EvalMembers(ms) == Ok(vs)
    decreases ms
  {
    if ms != [] {
      EvalMembersAllOk(ms[1..], vs[1..]);
      assert vs == [vs[0]] + vs[1..];
    }
  }

  /** Arithmetic expressions: integers, and three-member lists of `+`, `-` or
      `*` and two arithmetic expressions. */
  predicate IsArith(f: Form)
    decreases f
  {
    match f
    case Int(_) => true
    case List(l) =>
      && |l.members| == 3
      && l.members[0].Sym? && l.members[0].name in {"+", "-", "*"}
      && IsArith(l.members[1]) && IsArith(l.members[2])
    case _ => false
  }

  /** The value of an arithmetic expression, computed directly. */
  function Denote(f: Form): int
    requires IsArith(f)
    decreases f
  {
    match f
    case Int(v) => v
    case List(l) =>
      Arith(l.members[0].name, Denote(l.members[1]), Denote(l.members[2]))
  }

  /** The evaluator computes the value of every arithmetic expression. */
  lemma {:induction false} EvalArith(f: Form, env: Env)
    requires IsArith(f)
    ensures Eval(f, env) == Ok(Int(Denote(f)))
    decreases f
  {
    if f.List? {
      EvalArith(f.list.members[1], ReplEnv);
      EvalArith(f.list.members[2], ReplEnv);
      EvalArithStep(f, env);
    }
  }

  /** An arithmetic list whose operands evaluate to their values evaluates
      to the operation applied to those values. */
  lemma EvalArithStep(f: Form, env: Env)
    requires IsArith(f) && f.List?
    requires Eval(f.list.members[1], ReplEnv) == Ok(Int(Denote(f.list.members[1])))
    requires Eval(f.list.members[2], ReplEnv) == Ok(Int(Denote(f.list.members[2])))
    ensures Eval(f, env) == Ok(Int(Denote(f)))
  {
    var ms := f.list.members;
    var name := ms[0].name;
    var a, b := Denote(ms[1]), Denote(ms[2]);
    var vs := [Fn(ArithOp(name)), Int(a), Int(b)];
    assert Eval(ms[0], ReplEnv) == Ok(vs[0]);
    EvalMembersAllOk(ms, vs);
    EvalApplies(f, env, vs);
    ApplyArith(name, a, b);
    assert vs[1..] == [Int(a), Int(b)];
  }

  /** The primitive each arithmetic symbol is bound to. */
  function ArithOp(name: string): (op: Prim)
    requires name in {"+", "-", "*"}
    ensures name in ReplEnv && ReplEnv[name] == op
  {
    if name == "+" then Add else if name == "-" then Sub else Mul
  }

  /** The arithmetic each symbol names. */
  function Arith(name: string, a: int, b: int): int {
    if name == "+" then a + b else if name == "-" then a - b else a * b
  }

  /** Applying a symbol's primitive to two integers does its arithmetic. */
  lemma ApplyArith(name: string, a: int, b: int)
    requires name in {"+", "-", "*"}
    ensures Apply(ArithOp(name), [Int(a), Int(b)]) == Ok(Int(Arith(name, a, b)))
  {
  }

  /** A non-empty list whose members evaluate to a primitive and arguments
      evaluates to the primitive applied to the arguments. */
  lemma EvalApplies(f: Form, env: Env, vs: seq<Form>)
    requires f.List? && |f.list.members| > 0
    requires EvalMembers(f.list.members) == Ok(vs) && vs[0].Fn?
    ensures Eval(f, env) == Apply(vs[0].op, vs[1..])
  {
  }

  /** A non-empty list whose evaluated head is not a primitive fails, naming
      the head's rendered text. */
  lemma EvalNotCallable(f: Form, env: Env, vs: seq<Form>)
    requires f.List? && |f.list.members| > 0
    requires EvalMembers(f.list.members) == Ok(vs) && !vs[0].Fn?
    ensures Eval(f, env) == Err(NotCallable(Render(StringProperty(vs[0]))))
  {
  }

  /** The members are evaluated left to right and the first failure wins:
      when member `i` fails and every member before it succeeds, the list
      fails with member `i`'s error, whatever the members after it do. */
  lemma EvalFirstFailure(f: Form, env: Env, i: nat)
    requires f.List? && i < |f.list.members|
    requires Eval(f.list.members[i], ReplEnv).Err?
    requires forall j :: 0 <= j < i ==> Eval(f.list.members[j], ReplEnv).Ok?
    ensures Eval(f, env) == Err(Eval(f.list.members[i], ReplEnv).error)
  {
    EvalMembersFirstFailure(f.list.members, i);
  }

  lemma {:induction false} EvalMembersFirstFailure(ms: seq<Form>, i: nat)
    requires i < |ms| && Eval(ms[i], ReplEnv).Err?
    requires forall j :: 0 <= j < i ==> Eval(ms[j], ReplEnv).Ok?
    ensures EvalMembers(ms) == Err(Eval(ms[i], ReplEnv).error)
    decreases i
  {
    if i > 0 {
      assert Eval(ms[0], ReplEnv).Ok?;
      assert forall j :: 0 <= j < i - 1 ==> ms[1..][j] == ms[j + 1];
      EvalMembersFirstFailure(ms[1..], i - 1);
    }
  }

  /** The names of the symbols evaluation can reach: the form itself when it
      is a symbol, and the members of lists, recursively. */
  function ReachableSymbols(f: Form): set<string>
    decreases f
  {
    match f
    case Sym(name) => {name}
    case List(l) => set i, n | 0 <= i < |l.members| && n in ReachableSymbols(l.members[i]) :: n
    case _ => {}
  }

  /** An unbound-symbol failure names a reachable symbol with no binding. */
  lemma {:induction false} UnboundSymbolIsReachable(f: Form, env: Env, name: string)
    requires Eval(f, env) == Err(UnboundSymbol(name))
    ensures name in ReachableSymbols(f) && name !in ReplEnv
    decreases f
  {
    if f.List? && |f.list.members| > 0 {
      var ms := f.list.members;
      match EvalMembers(ms)
      case Err(e) =>
        var i :| 0 <= i < |ms| && Eval(ms[i], ReplEnv) == Err(e);
        UnboundSymbolIsReachable(ms[i], ReplEnv, name);
      case Ok(vs) =>
    }
  }

  /** When evaluation succeeds, every reachable symbol is bound. */
  lemma {:induction false} EvalOkSymbolsBound(f: Form, env: Env)
    requires Eval(f, env).Ok?
    ensures forall n :: n in ReachableSymbols(f) ==> n in ReplEnv
    decreases f
  {
    if f.List? {
      var ms := f.list.members;
      forall n | n in ReachableSymbols(f)
        ensures n in ReplEnv
      {
        var i :| 0 <= i < |ms| && n in ReachableSymbols(ms[i]);
        EvalOkSymbolsBound(ms[i], ReplEnv);
      }
    }
  }
}

=== FILE: lexer.dfy ===
/** The tokenizer of the reader: a hand-written scanner equivalent to the one
    global regular expression the reader runs over its input,

      [\s,]* ( ~@ | [\[\]{}()'`~^@] | "(?:\\.|[^\\"])*" | ;.* | [^\s\[\]{}('"`,;)]* )

    Each match skips separators and then takes the first alternative that
    matches (the alternatives are tried in order, not for the longest match).
    Every match that consumed something becomes a token holding the captured
    text and its offset; scanning stops at the first match that consumed
    nothing. */
module Lexer {
  import opened Types

  /** The characters of the regular-expression class `\s`. */
  predicate IsSpace(c: char) {
    || c == ' ' || c == '\t' || c == '\n' || c == '\r'
    || c as int == 0x0B || c as int == 0x0C
    || c as int == 0xA0 || c as int == 0x1680
    || 0x2000 <= c as int <= 0x200A
    || c as int == 0x2028 || c as int == 0x2029
    || c as int == 0x202F || c as int == 0x205F
    || c as int == 0x3000 || c as int == 0xFEFF
  }

  /** Characters skipped before a token: `\s` and the comma. */
  predicate IsSeparator(c: char) {
    IsSpace(c) || c == ','
  }

  /** The characters the regular-expression `.` does not match. */
  predicate IsLineTerminator(c: char) {
    c == '\n' || c == '\r' || c as int == 0x2028 || c as int == 0x2029
  }

  /** The single-character structural tokens. */
  predicate IsStructural(c: char) {
    || c == '[' || c == ']' || c == '{' || c == '}' || c == '(' || c == ')'
    || c == '\'' || c == '`' || c == '~' || c == '^' || c == '@'
  }

  /** The characters a bare symbol or number run may contain. */
  predicate IsRunChar(c: char) {
    && !IsSpace(c)
    && c != '[' && c != ']' && c != '{' && c != '}' && c != '(' && c != ')'
    && c != '\'' && c != '"' && c != '`' && c != ',' && c != ';'
  }

  /** Every position in [a, b) exists in `s` and holds a separator. */
  predicate SeparatorsBetween(s: string, a: nat, b: nat) {
    forall k :: a <= k < b ==> k < |s| && IsSeparator(s[k])
  }

  /** The position after the separators starting at `p`. */
  function SkipSeparators(s: string, p: nat): (q: nat)
    requires p <= |s|
    ensures p <= q <= |s|
    ensures SeparatorsBetween(s, p, q)
    ensures q == |s| || !IsSeparator(s[q])
    decreases |s| - p
  {
    if p < |s| && IsSeparator(s[p]) then SkipSeparators(s, p + 1) else p
  }

  /** The end of the longest run of run characters starting at `p`. */
  function RunEnd(s: string, p: nat): (q: nat)
    requires p <= |s|
    ensures p <= q <= |s|
    ensures forall k :: p <= k < q ==> IsRunChar(s[k])
    ensures q == |s| || !IsRunChar(s[q])
    decreases |s| - p
  {
    if p < |s| && IsRunChar(s[p]) then RunEnd(s, p + 1) else p
  }

  /** The end of the line that starts at `p` (the `.*` of a comment). */
  function LineEnd(s: string, p: nat): (q: nat)
    requires p <= |s|
    ensures p <= q <= |s|
    ensures forall k :: p <= k < q ==> !IsLineTerminator(s[k])
    ensures q == |s| || IsLineTerminator(s[q])
    decreases |s| - p
  {
    if p < |s| && !IsLineTerminator(s[p]) then LineEnd(s, p + 1) else p
  }

  /** The body of a string literal as its alternative `(?:\\.|[^\\"])*`
      describes it: escape pairs whose second character is not a line
      terminator, and single characters that are neither a backslash nor a
      double quote. */
  predicate IsStringBody(u: string)
    decreases |u|
  {
    || u == []
    || (u[0] == '\\' && |u| >= 2 && !IsLineTerminator(u[1]) && IsStringBody(u[2..]))
    || (u[0] != '\\' && u[0] != '"' && IsStringBody(u[1..]))
  }

  /** A complete string literal: a double quote, a body, a double quote. */
  predicate IsStringLiteral(t: string) {
    |t| >= 2 && t[0] == '"' && t[|t| - 1] == '"' && IsStringBody(t[1..|t| - 1])
  }

  /** Where the greedy body of a string literal starting at `p` stops. */
  function StringBodyEnd(s: string, p: nat): (q: nat)
    requires p <= |s|
    ensures p <= q <= |s|
    ensures IsStringBody(s[p..q])
    ensures q == |s| || s[q] == '"' || (s[q] == '\\' && (q + 1 == |s| || IsLineTerminator(s[q + 1])))
    decreases |s| - p
  {
    if p + 1 < |s| && s[p] == '\\' && !IsLineTerminator(s[p + 1]) then
      var q := StringBodyEnd(s, p + 2);
      assert s[p..q][2..] == s[p + 2..q];
      q
    else if p < |s| && s[p] != '\\' && s[p] != '"' then
      var q := StringBodyEnd(s, p + 1);
      assert s[p..q][1..] == s[p + 1..q];
      q
    else
      p
  }

  /** The greedy scan of a string body stops at the first quote that follows a
      complete body. */
  lemma {:induction false} StringBodyEndAtQuote(s: string, p: nat, b: nat)
    requires p <= b < |s| && s[b] == '"'
    requires IsStringBody(s[p..b])
    ensures StringBodyEnd(s, p) == b
    decreases b - p
  {
    var u := s[p..b];
    if p < b {
      if u[0] == '\\' {
        assert u[2..] == s[p + 2..b];
        StringBodyEndAtQuote(s, p + 2, b);
      } else {
        assert u[1..] == s[p + 1..b];
        StringBodyEndAtQuote(s, p + 1, b);
      }
    }
  }

  /** The string literal whose opening quote is at `q` has a closing quote. */
  predicate ClosedString(s: string, q: nat)
    requires q < |s|
  {
    var b := StringBodyEnd(s, q + 1);
    b < |s| && s[b] == '"'
  }

  /** The end of the captured text at `q`, taking the first alternative of the
      pattern that matches there. When no alternative consumes anything (end of
      input, or an unterminated string) the last alternative matches the empty
      text and the end is `q` itself. */
  function TokenEnd(s: string, q: nat): (e: nat)
    requires q <= |s|
    ensures q <= e <= |s|
    ensures e == q <==> q == |s| || IsSeparator(s[q]) || (s[q] == '"' && !ClosedString(s, q))
  {
    if q == |s| then q
    else if s[q] == '~' && q + 1 < |s| && s[q + 1] == '@' then q + 2
    else if IsStructural(s[q]) then q + 1
    else if s[q] == '"' then
      (if ClosedString(s, q) then StringBodyEnd(s, q + 1) + 1 else q)
    else if s[q] == ';' then LineEnd(s, q + 1)
    else RunEnd(s, q)
  }

  /** The shapes a token's text can take: the splice marker, one structural
      character, a complete string literal, a comment, a non-empty run, or the
      empty text of a match that consumed only separators. */
  predicate IsTokenShape(t: string) {
    || t == "~@"
    || (|t| == 1 && IsStructural(t[0]))
    || IsStringLiteral(t)
    || (|t| >= 1 && t[0] == ';' && forall k :: 1 <= k < |t| ==> !IsLineTerminator(t[k]))
    || (|t| >= 1 && forall k :: 0 <= k < |t| ==> IsRunChar(t[k]))
    || t == []
  }

  lemma TokenEndShape(s: string, q: nat)
    requires q <= |s|
    requires q == |s| || !IsSeparator(s[q])
    ensures IsTokenShape(s[q..TokenEnd(s, q)])
    ensures s[q..TokenEnd(s, q)] == "~" ==> q + 1 == |s| || s[q + 1] != '@'
  {
    var e := TokenEnd(s, q);
    var t := s[q..e];
    if q == |s| {
    } else if s[q] == '~' && q + 1 < |s| && s[q + 1] == '@' {
      assert t == "~@";
    } else if IsStructural(s[q]) {
    } else if s[q] == '"' {
      if ClosedString(s, q) {
        QuotedSlice(s, q, StringBodyEnd(s, q + 1));
      }
    } else if s[q] == ';' {
    } else {
    }
  }

  /** A string body between two double quotes is a string literal. */
  lemma QuotedSlice(s: string, q: nat, b: nat)
    requires q < b < |s| && s[q] == '"' && s[b] == '"'
    requires IsStringBody(s[q + 1..b])
    ensures IsStringLiteral(s[q..b + 1])
  {
    var t := s[q..b + 1];
    var u := t[1..|t| - 1];
    assert |u| == b - q - 1;
    forall k | 0 <= k < |u|
      ensures u[k] == s[q + 1..b][k]
    {
      assert u[k] == t[k + 1] == s[q + k + 1];
    }
    assert u == s[q + 1..b];
  }

  /** The position from which the text after the tokens of `s` starting at
      `p` begins: the end of the last token, or `p` when there is none. */
  function ScanEnd(toks: seq<Token>, p: nat): nat {
    if toks == [] then p else toks[|toks| - 1].End()
  }

  /** Scanning from `x` finds nothing more: `x` is the end of the input or
      the opening quote of a string literal that is never closed. */
  predicate StopsAt(s: string, x: nat) {
    x == |s| || (x < |s| && s[x] == '"' && !ClosedString(s, x))
  }

  /** Token `t` found by a scan that started at `p`: its text is the source
      slice at its offset, does not start with a separator, has one of the
      token shapes, is a lone `~` only when no `@` follows it, and is exactly
      what the pattern captures at its offset. */
  predicate Placed(s: string, p: nat, t: Token) {
    && p <= t.offset && t.End() <= |s| && s[t.offset..t.End()] == t.text
    && (t.text == [] || !IsSeparator(t.text[0]))
    && IsTokenShape(t.text)
    && (t.text == "~" ==> t.End() == |s| || s[t.End()] != '@')
    && t.End() == TokenEnd(s, t.offset)
  }

  /** Token `b` follows token `a`: `a` is not empty, they do not overlap, and
      only separators lie between them. */
  predicate Follows(s: string, a: Token, b: Token) {
    a.text != [] && a.End() <= b.offset && SeparatorsBetween(s, a.End(), b.offset)
  }

  /** Where the match that found token `i` of a scan from `p` started: the
      end of the token before it, or `p` for the first. */
  function Before(toks: seq<Token>, p: nat, i: nat): nat
    requires i < |toks|
  {
    if i == 0 then p else toks[i - 1].End()
  }

  /** What a scan from `p` promises of the tokens it returns: each token is
      placed in the source, separators alone lie before the first and between
      neighbours, tokens come in source order without overlap, only the last
      can be empty and only when its match skipped at least one separator,
      and the scan ended where no further match consumes anything. */
  predicate Scanned(s: string, p: nat, toks: seq<Token>) {
    && (forall i :: 0 <= i < |toks| ==> Placed(s, p, toks[i]))
    && (|toks| > 0 ==> SeparatorsBetween(s, p, toks[0].offset))
    && (forall i :: 0 < i < |toks| ==> Follows(s, toks[i - 1], toks[i]))
    && (forall i :: 0 <= i < |toks| && toks[i].text == [] ==> toks[i].offset > Before(toks, p, i))
    && StopsAt(s, ScanEnd(toks, p))
  }

  /** The tokens of `s` from position `p` on: the loop that runs the global
      pattern from `lastIndex` = `p` until a match consumes nothing. */
  function TokenizeFrom(s: string, p: nat): seq<Token>
    requires p <= |s|
    decreases |s| - p
  {
    var q := SkipSeparators(s, p);
    var e := TokenEnd(s, q);
    if e == p then []
    else [Token(s[q..e], q)] + TokenizeFrom(s, e)
  }

  /** What the scan promises: every token sits at its offset in the source
      with one of the token shapes and no leading separator, only separators
      lie before and between tokens, tokens come in order without overlap,
      and scanning stops only at the end of the input or at a string literal
      that is never closed. */
  lemma {:induction false} TokenizeScanned(s: string, p: nat)
    requires p <= |s|
    ensures Scanned(s, p, TokenizeFrom(s, p))
    decreases |s| - p
  {
    var q := SkipSeparators(s, p);
    var e := TokenEnd(s, q);
    if e == p {
      EmptyMatch(s, p);
    } else {
      TokenizeScanned(s, e);
      EmptyTokenEndsScan(s, q);
      ScanStep(s, p, TokenizeFrom(s, e));
    }
  }

  /** A match that consumes nothing happens only at the end of the input or
      at a string literal that is never closed. */
  lemma EmptyMatch(s: string, p: nat)
    requires p <= |s|
    requires TokenEnd(s, SkipSeparators(s, p)) == p
    ensures Scanned(s, p, [])
  {
    assert SkipSeparators(s, p) == p;
  }

  /** A match whose capture is empty ends the scan: nothing is found after
      it. */
  lemma EmptyTokenEndsScan(s: string, q: nat)
    requires q <= |s|
    requires q == |s| || !IsSeparator(s[q])
    ensures TokenEnd(s, q) == q ==> TokenizeFrom(s, q) == []
  {
    assert SkipSeparators(s, q) == q;
  }

  /** The token found from `p`, in front of the tokens scanned after it, gives
      a scan from `p`. */
  lemma ScanStep(s: string, p: nat, rest: seq<Token>)
    requires p <= |s|
    requires TokenEnd(s, SkipSeparators(s, p)) != p
    requires Scanned(s, TokenEnd(s, SkipSeparators(s, p)), rest)
    requires TokenEnd(s, SkipSeparators(s, p)) == SkipSeparators(s, p) ==> rest == []
    ensures var q := SkipSeparators(s, p);
      Scanned(s, p, [Token(s[q..TokenEnd(s, q)], q)] + rest)
  {
    var q := SkipSeparators(s, p);
    FirstTokenPlaced(s, p);
    ConsScanned(s, p, Token(s[q..TokenEnd(s, q)], q), rest);
  }

  lemma FirstTokenPlaced(s: string, p: nat)
    requires p <= |s|
    ensures var q := SkipSeparators(s, p);
      var t := Token(s[q..TokenEnd(s, q)], q);
      Placed(s, p, t) && t.End() == TokenEnd(s, q)
  {
    TokenEndShape(s, SkipSeparators(s, p));
  }

  /** The token the scan builds from the match at `p` carries the fields a
      token derives from its match: the text is the capture, the offset is the
      match position plus the length of the whole match less that of the
      capture, and the length is the capture's. */
  lemma TokenOfMatch(s: string, p: nat)
    requires p <= |s|
    ensures var q := SkipSeparators(s, p);
      var e := TokenEnd(s, q);
      var whole := s[p..e];
      var capture := s[q..e];
      e != p ==>
        && TokenizeFrom(s, p)[0].text == capture
        && TokenizeFrom(s, p)[0].offset == p + (|whole| - |capture|)
        && TokenizeFrom(s, p)[0].Length() == |capture|
        && TokenizeFrom(s, p)[0].End() == e
  {
  }

  lemma ConsScanned(s: string, p: nat, t: Token, rest: seq<Token>)
    requires Placed(s, p, t) && SeparatorsBetween(s, p, t.offset)
    requires Scanned(s, t.End(), rest)
    requires t.text == [] ==> rest == [] && t.offset > p
    ensures Scanned(s, p, [t] + rest)
  {
    ConsPlaced(s, p, t, rest);
    assert |rest| > 0 ==> Follows(s, t, rest[0]);
    ConsFollows(s, t, rest);
    ConsBefore(p, t, rest);
    assert ScanEnd([t] + rest, p) == ScanEnd(rest, t.End());
  }

  /** The placement clause of `Scanned` carries over to a token in front
      of a scan from its end. */
  lemma ConsPlaced(s: string, p: nat, t: Token, rest: seq<Token>)
    requires Placed(s, p, t)
    requires forall i :: 0 <= i < |rest| ==> Placed(s, t.End(), rest[i])
    ensures forall i :: 0 <= i < |[t] + rest| ==> Placed(s, p, ([t] + rest)[i])
  {
    var toks := [t] + rest;
    forall i | 0 <= i < |toks|
      ensures Placed(s, p, toks[i])
    {
      if i > 0 {
        assert toks[i] == rest[i - 1];
      }
    }
  }

  /** So does the chaining clause, given that `t` ends where the scan of
      `rest` starts. */
  lemma ConsFollows(s: string, t: Token, rest: seq<Token>)
    requires |rest| > 0 ==> Follows(s, t, rest[0])
    requires forall i :: 0 < i < |rest| ==> Follows(s, rest[i - 1], rest[i])
    ensures forall i :: 0 < i < |[t] + rest| ==> Follows(s, ([t] + rest)[i - 1], ([t] + rest)[i])
  {
    var toks := [t] + rest;
    forall i | 0 < i < |toks|
      ensures Follows(s, toks[i - 1], toks[i])
    {
      if i > 1 {
        assert toks[i - 1] == rest[i - 2] && toks[i] == rest[i - 1];
      }
    }
  }

  /** And so does the empty-token clause. */
  lemma ConsBefore(p: nat, t: Token, rest: seq<Token>)
    requires t.text == [] ==> t.offset > p
    requires forall i :: 0 <= i < |rest| && rest[i].text == [] ==> rest[i].offset > Before(rest, t.End(), i)
    ensures forall i :: 0 <= i < |[t] + rest| && ([t] + rest)[i].text == [] ==> ([t] + rest)[i].offset > Before([t] + rest, p, i)
  {
    var toks := [t] + rest;
    forall i | 0 <= i < |toks| && toks[i].text == []
      ensures toks[i].offset > Before(toks, p, i)
    {
      if i > 0 {
        assert toks[i] == rest[i - 1];
        assert Before(toks, p, i) == Before(rest, t.End(), i - 1);
      }
    }
  }

  // ---------------------------------------------------------------------
  // The scan's promise determines the tokens.

  /** The only position from which separators alone reach a non-separator
      (or the end) is the one `SkipSeparators` finds. */
  lemma SkipUnique(s: string, p: nat, o: nat)
    requires p <= o <= |s| && SeparatorsBetween(s, p, o)
    requires o == |s| || !IsSeparator(s[o])
    ensures o == SkipSeparators(s, p)
  {
  }

  /** A placed token with text starts with a character that is not a
      separator; one without text sits where the scan stops. */
  lemma TokenStart(s: string, p: nat, t: Token)
    requires Placed(s, p, t)
    ensures t.offset <= |s|
    ensures t.text != [] ==> t.offset < |s| && !IsSeparator(s[t.offset])
  {
    if t.text != [] {
      assert s[t.offset..t.End()][0] == s[t.offset];
    }
  }

  /** The first token of any scan from `p` starts where the separators
      after `p` end. */
  lemma FirstOffset(s: string, p: nat, toks: seq<Token>)
    requires Scanned(s, p, toks) && |toks| > 0
    ensures toks[0].offset == SkipSeparators(s, p)
  {
    var t := toks[0];
    TokenStart(s, p, t);
    if t.text == [] {
      assert |toks| > 1 ==> Follows(s, toks[0], toks[1]);
      assert ScanEnd(toks, p) == t.offset;
      assert StopsAt(s, t.offset);
    }
    SkipUnique(s, p, t.offset);
  }

  /** Where the scan has stopped, no token can be found. */
  lemma StopsNoTokens(s: string, p: nat, toks: seq<Token>)
    requires Scanned(s, p, toks) && StopsAt(s, p)
    ensures toks == []
  {
    if toks != [] {
      SkipUnique(s, p, p);
      FirstOffset(s, p, toks);
    }
  }

  /** A token placed for a scan from `p` is placed for a scan from any
      position up to its offset. */
  lemma PlacedFrom(s: string, p: nat, p': nat, t: Token)
    requires Placed(s, p, t) && p' <= t.offset
    ensures Placed(s, p', t)
  {
  }

  /** Later tokens of a scan start no earlier than the first one ends. */
  lemma {:induction false} OffsetsAscend(s: string, p: nat, toks: seq<Token>, i: nat)
    requires Scanned(s, p, toks) && 0 < i < |toks|
    ensures toks[0].End() <= toks[i].offset
    decreases i
  {
    assert Follows(s, toks[i - 1], toks[i]);
    if i > 1 {
      OffsetsAscend(s, p, toks, i - 1);
      assert Placed(s, p, toks[i - 1]);
    }
  }

  /** The tokens after the first form a scan from the first one's end. */
  lemma ScannedTail(s: string, p: nat, toks: seq<Token>)
    requires Scanned(s, p, toks) && |toks| > 0
    ensures Scanned(s, toks[0].End(), toks[1..])
  {
    var e := toks[0].End();
    var rest := toks[1..];
    forall i | 0 <= i < |rest|
      ensures Placed(s, e, rest[i])
    {
      OffsetsAscend(s, p, toks, i + 1);
      PlacedFrom(s, p, e, toks[i + 1]);
    }
    if |rest| > 0 {
      assert Follows(s, toks[0], toks[1]);
    }
    forall i | 0 < i < |rest|
      ensures Follows(s, rest[i - 1], rest[i])
    {
      assert Follows(s, toks[i], toks[i + 1]);
    }
    forall i | 0 <= i < |rest| && rest[i].text == []
      ensures rest[i].offset > Before(rest, e, i)
    {
      assert rest[i] == toks[i + 1];
    }
    assert ScanEnd(rest, e) == ScanEnd(toks, p);
  }

  /** Two token sequences that both keep the scan's promise from `p` are the
      same: the promise pins the output down completely. */
  lemma {:induction false} ScannedUnique(s: string, p: nat, a: seq<Token>, b: seq<Token>)
    requires p <= |s|
    requires Scanned(s, p, a) && Scanned(s, p, b)
    ensures a == b
    decreases |s| - p
  {
    if a == [] {
      StopsNoTokens(s, p, b);
    } else if b == [] {
      StopsNoTokens(s, p, a);
    } else {
      FirstTokenSame(s, p, a, b);
      ScannedTail(s, p, a);
      ScannedTail(s, p, b);
      ScannedUnique(s, a[0].End(), a[1..], b[1..]);
      assert a == [a[0]] + a[1..] && b == [b[0]] + b[1..];
    }
  }

  /** Two scans from `p` that find something find the same first token, and
      it ends after `p`. */
  lemma FirstTokenSame(s: string, p: nat, a: seq<Token>, b: seq<Token>)
    requires Scanned(s, p, a) && Scanned(s, p, b) && a != [] && b != []
    ensures a[0] == b[0] && p < a[0].End() <= |s|
  {
    FirstOffset(s, p, a);
    FirstOffset(s, p, b);
    assert Placed(s, p, a[0]) && Placed(s, p, b[0]);
    assert a[0].text == [] ==> a[0].offset > Before(a, p, 0);
  }

  /** The tokens `tokenize` returns are the only ones that keep the scan's
      promise over the whole text. */
  lemma TokenizeUnique(s: string, toks: seq<Token>)
    requires Scanned(s, 0, toks)
    ensures toks == Tokenize(s)
  {
    ScannedUnique(s, 0, toks, Tokenize(s));
  }

  /** The tokens of a whole source text. */
  function Tokenize(s: string): (r: seq<Token>)
    ensures Scanned(s, 0, r)
  {
    TokenizeScanned(s, 0);
    TokenizeFrom(s, 0)
  }
}

=== FILE: printer.dfy ===
/** The printer: `PrintObject` renders a form as text, and `EncodeString`
    renders string contents as a double-quoted literal, escaping `"`, newline
    and backslash. `PrintObject` takes no options: a `printReadably` flag a
    caller passes has no effect. */
module Printer {
  import opened Types
  import Lexer

  /** The parts joined by single spaces (the separator of `join(' ')`). */
  function JoinSpaced(parts: seq<string>): string {
    if |parts| == 0 then ""
    else if |parts| == 1 then parts[0]
    else parts[0] + " " + JoinSpaced(parts[1..])
  }

  /** The laws of `join(' ')`: no parts give the empty text, one part is
      itself, and joining two non-empty runs of parts puts exactly one space
      between their joins. These determine the join of every sequence. */
  lemma {:induction false} JoinSpacedAppend(a: seq<string>, b: seq<string>)
    ensures JoinSpaced([]) == ""
    ensures |a| == 1 ==> JoinSpaced(a) == a[0]
    ensures |a| > 0 && |b| > 0 ==> JoinSpaced(a + b) == JoinSpaced(a) + " " + JoinSpaced(b)
    decreases |a|
  {
    if |a| > 1 && |b| > 0 {
      JoinSpacedAppend(a[1..], b);
      assert (a + b)[1..] == a[1..] + b;
    }
  }

  /** The text of a form, None where the source's `printObject` returns
      `undefined`: collections print their members joined by spaces inside
      their delimiters (a hash map as `key value` pairs in key order), strings
      print encoded, and every other form prints its `string` property, which
      a primitive function value does not have. */
  function PrintObject(f: Form): (r: Option<string>)
    decreases f, 1
    ensures r.None? <==> f.Fn?
    ensures f.Atom? || f.Sym? || f.Int? ==> r == StringProperty(f)
    ensures f.Str? ==> r == Some("\"" + EscapeAll(f.text) + "\"")
    ensures f.Str? ==>
      && r.Some? && |r.value| >= 2 && r.value[0] == '"' && r.value[|r.value| - 1] == '"'
      && Unescape(r.value[1..|r.value| - 1]) == Some(f.text)
    ensures f.List? ==> r == Some("(" + JoinSpaced(PrintAll(f.list.members)) + ")")
    ensures f.Vector? ==> r == Some("[" + JoinSpaced(PrintAll(f.members)) + "]")
    ensures f.HashMap? ==> r == Some("{" + JoinSpaced(PrintEntries(f.entries)) + "}")
  {
    match f
    case List(l) => Some("(" + JoinSpaced(PrintAll(l.members)) + ")")
    case Vector(ms) => Some("[" + JoinSpaced(PrintAll(ms)) + "]")
    case HashMap(es) => Some("{" + JoinSpaced(PrintEntries(es)) + "}")
    case Str(s) =>
      var e := EncodeString(s);
      UnescapeEscapeAll(s);
      assert e[1..|e| - 1] == EscapeAll(s);
      Some(e)
    case _ => StringProperty(f)
  }

  /** How `join` writes one element: an undefined one as the empty text. */
  function Joined(p: Option<string>): string {
    match p
    case Some(t) => t
    case None => ""
  }

  /** Each member printed, in order (the `map(printObject)` of a collection,
      as `join` writes it). */
  function PrintAll(ms: seq<Form>): (r: seq<string>)
    decreases ms, 0
    ensures |r| == |ms|
    ensures forall i :: 0 <= i < |ms| ==> r[i] == Joined(PrintObject(ms[i]))
    ensures forall i :: 0 <= i < |ms| && ms[i].Fn? ==> r[i] == ""
  {
    if ms == [] then [] else [Joined(PrintObject(ms[0]))] + PrintAll(ms[1..])
  }

  /** Each entry printed as its key, a space and its value, in key order. */
  function PrintEntries(es: seq<MapEntry>): (r: seq<string>)
    decreases es, 0
    ensures |r| == |es|
    ensures forall i :: 0 <= i < |es| ==> r[i] == PrintEntry(es[i])
  {
    if es == [] then [] else [PrintEntry(es[0])] + PrintEntries(es[1..])
  }

  /** A template literal renders an undefined key or value as `undefined`. */
  function PrintEntry(e: MapEntry): string
    decreases e, 2
  {
    Render(PrintObject(e.key)) + " " + Render(PrintObject(e.value))
  }

  // ---------------------------------------------------------------------
  // String encoding.

  /** The characters the encoder rewrites. */
  predicate NeedsEscape(c: char) {
    c == '"' || c == '\n' || c == '\\'
  }

  /** The replacement for one character. */
  function Escape(c: char): string {
    if c == '"' then "\\\""
    else if c == '\n' then "\\n"
    else if c == '\\' then "\\\\"
    else [c]
  }

  /** Character-by-character escaping: the reference the encoder's loop is
      proved against. */
  function EscapeAll(s: string): string {
    if s == [] then [] else Escape(s[0]) + EscapeAll(s[1..])
  }

  lemma {:induction false} EscapeAllAppend(a: string, b: string)
    ensures EscapeAll(a + b) == EscapeAll(a) + EscapeAll(b)
  {
    if a == [] {
      assert a + b == b;
    } else {
      assert (a + b)[1..] == a[1..] + b;
      EscapeAllAppend(a[1..], b);
    }
  }

  lemma {:induction false} EscapeAllPlain(a: string)
    requires forall k :: 0 <= k < |a| ==> !NeedsEscape(a[k])
    ensures EscapeAll(a) == a
  {
    if a != [] {
      EscapeAllPlain(a[1..]);
    }
  }

  /** The index of the next character at or after `from` that needs escaping,
      or the length of `s` when there is none (the regular-expression search
      for `"|\n|\\`). */
  function NextHit(s: string, from: nat): (h: nat)
    requires from <= |s|
    ensures from <= h <= |s|
    ensures forall k :: from <= k < h ==> !NeedsEscape(s[k])
    ensures h < |s| ==> NeedsEscape(s[h])
    decreases |s| - from
  {
    if from == |s| || NeedsEscape(s[from]) then from else NextHit(s, from + 1)
  }

  /** The encoder's loop from `lastIndex` on: copy the text up to the next hit,
      then the hit's replacement, and continue after the hit; at the end copy
      the rest. */
  function EncodeFrom(s: string, last: nat, value: string): (r: string)
    requires last <= |s|
    ensures r == value + EscapeAll(s[last..])
    decreases |s| - last
  {
    var h := NextHit(s, last);
    EscapeAtHit(s, last, h);
    if h == |s| then
      value + s[last..]
    else
      EncodeFrom(s, h + 1, value + s[last..h] + Escape(s[h]))
  }

  /** Escaping from `last` on is copying up to the next hit `h`, then the
      hit's replacement, then escaping the rest. */
  lemma EscapeAtHit(s: string, last: nat, h: nat)
    requires last <= h <= |s|
    requires forall k :: last <= k < h ==> !NeedsEscape(s[k])
    ensures h == |s| ==> EscapeAll(s[last..]) == s[last..]
    ensures h < |s| ==> EscapeAll(s[last..]) == s[last..h] + Escape(s[h]) + EscapeAll(s[h + 1..])
  {
    EscapeAllPlain(s[last..h]);
    if h == |s| {
      assert s[last..] == s[last..h];
    } else {
      assert s[last..] == s[last..h] + [s[h]] + s[h + 1..];
      EscapeAllAppend(s[last..h] + [s[h]], s[h + 1..]);
      EscapeAllAppend(s[last..h], [s[h]]);
      assert EscapeAll([s[h]]) == Escape(s[h]) + EscapeAll([]);
    }
  }

  /** A string's contents as a double-quoted literal: every character escaped
      in order. */
  function EncodeString(s: string): (r: string)
    ensures r == "\"" + EscapeAll(s) + "\""
  {
    "\"" + EncodeFrom(s, 0, "") + "\""
  }

  /** The number of characters of `s` that need escaping. */
  function EscapeCount(s: string): nat {
    multiset(s)['"'] + multiset(s)['\n'] + multiset(s)['\\']
  }

  /** Each character needing escape grows the text by one; the quotes add two. */
  lemma {:induction false} EncodedLength(s: string)
    ensures |EncodeString(s)| == |s| + 2 + EscapeCount(s)
  {
    EscapedLength(s);
  }

  lemma {:induction false} EscapedLength(s: string)
    ensures |EscapeAll(s)| == |s| + EscapeCount(s)
  {
    if s != [] {
      assert s == [s[0]] + s[1..];
      assert multiset(s) == multiset{s[0]} + multiset(s[1..]);
      EscapedLength(s[1..]);
    }
  }

  /** Encoding leaves a string unchanged apart from the quotes exactly when it
      has no character needing escape. */
  lemma EncodeIdentity(s: string)
    ensures EncodeString(s) == "\"" + s + "\"" <==> forall k :: 0 <= k < |s| ==> !NeedsEscape(s[k])
  {
    if forall k :: 0 <= k < |s| ==> !NeedsEscape(s[k]) {
      EscapeAllPlain(s);
    } else {
      var k :| 0 <= k < |s| && NeedsEscape(s[k]);
      assert s[k] in multiset(s);
      EncodedLength(s);
    }
  }

  /** Decoding as the reader's string literals decode: `\"`, `\n` and `\\`
      are replaced left to right; any other escape is an error. The reference
      inverse of the encoder. */
  function Unescape(u: string): Option<string>
    decreases |u|
  {
    if u == [] then Some([])
    else if u[0] != '\\' then
      match Unescape(u[1..])
      case None => None
      case Some(r) => Some([u[0]] + r)
    else if |u| >= 2 && (u[1] == '"' || u[1] == 'n' || u[1] == '\\') then
      match Unescape(u[2..])
      case None => None
      case Some(r) => Some([if u[1] == 'n' then '\n' else u[1]] + r)
    else None
  }

  /** The encoding loses nothing: decoding the interior gives back the string. */
  lemma {:induction false} UnescapeEscapeAll(s: string)
    ensures Unescape(EscapeAll(s)) == Some(s)
  {
    if s != [] {
      UnescapeEscapeAll(s[1..]);
      assert s == [s[0]] + s[1..];
      var e := EscapeAll(s);
      assert e == Escape(s[0]) + EscapeAll(s[1..]);
      if NeedsEscape(s[0]) {
        assert e[0] == '\\' && (e[1] == '"' || e[1] == 'n' || e[1] == '\\');
        assert (if e[1] == 'n' then '\n' else e[1]) == s[0];
        assert e[2..] == EscapeAll(s[1..]);
      } else {
        assert e[0] == s[0] && e[0] != '\\';
        assert e[1..] == EscapeAll(s[1..]);
      }
    }
  }

  /** The interior of an encoded string has no raw newline, and is the body of
      a string literal as the tokenizer reads one, so each `"` in it follows an
      escaping backslash. */
  lemma {:induction false} EscapedInterior(s: string)
    ensures forall k :: 0 <= k < |EscapeAll(s)| ==> EscapeAll(s)[k] != '\n'
    ensures Lexer.IsStringBody(EscapeAll(s))
    ensures forall k :: 0 <= k < |EscapeAll(s)| && EscapeAll(s)[k] == '"' ==> 0 < k && EscapeAll(s)[k - 1] == '\\'
  {
    if s != [] {
      EscapedInterior(s[1..]);
      var e := EscapeAll(s);
      var tail := EscapeAll(s[1..]);
      assert e == Escape(s[0]) + tail;
      if NeedsEscape(s[0]) {
        assert e[2..] == tail;
        assert tail != [] ==> tail[0] != '"';
      } else {
        assert e[1..] == tail;
      }
    }
  }

  /** Printed strings lex back as one string-literal token spanning the whole
      text. */
  lemma EncodedLexesAsOneToken(s: string)
    ensures Lexer.Tokenize(EncodeString(s)) == [Token(EncodeString(s), 0)]
  {
    var r := EncodeString(s);
    EncodedTokenEnd(s);
    assert Lexer.SkipSeparators(r, |r|) == |r|;
    assert Lexer.TokenizeFrom(r, |r|) == [];
    assert r[0..|r|] == r;
  }

  /** The string-literal alternative matches the whole printed string. */
  lemma EncodedTokenEnd(s: string)
    ensures Lexer.SkipSeparators(EncodeString(s), 0) == 0
    ensures Lexer.TokenEnd(EncodeString(s), 0) == |EncodeString(s)|
  {
    var r := EncodeString(s);
    var c := r[0];
    assert c == '"';
    assert !Lexer.IsSeparator(c) && !Lexer.IsStructural(c);
    EscapedInterior(s);
    assert r[1..|r| - 1] == EscapeAll(s);
    Lexer.StringBodyEndAtQuote(r, 1, |r| - 1);
    assert Lexer.ClosedString(r, 0);
  }
}

=== FILE: reader.dfy ===
/** The recursive-descent reader: an immutable cursor over the token
    sequence, and `ReadForm`/`ReadList`/`ReadAtom`, which build a tree of
    atoms and lists. Only `(` opens a collection; every other token, `[`, `{`
    and a stray `)` included, is read as an atom. Reading past the last token
    fails with `NoToken`. */
module Reader {
  import opened Types
  import Lexer

  /** The reader's cursor: a token sequence and an index into it. Advancing
      yields a new cursor and leaves this one as it was. */
  datatype Cursor = Cursor(tokens: seq<Token>, index: nat) {

    /** The cursor one token further over the same tokens. */
    function Next(): (r: Cursor)
      ensures r.tokens == tokens && r.index == index + 1
      ensures r.Current() == if index + 1 < |tokens| then Some(tokens[index + 1]) else None
    {
      Cursor(tokens, index + 1)
    }

    /** The token under the cursor, or None past the end. */
    function Current(): (t: Option<Token>)
      ensures t.Some? <==> index < |tokens|
      ensures t.Some? ==> t.value == tokens[index]
    {
      if index < |tokens| then Some(tokens[index]) else None
    }

    /** How many tokens are left: the termination measure of the reader. */
    function Remaining(): nat {
      if index <= |tokens| then |tokens| - index else 0
    }
  }

  /** A form read and the cursor after it. */
  datatype Parsed = Parsed(form: Form, rest: Cursor)

  /** Reads one form at the cursor: a list when the current token is `(`, an
      atom otherwise. */
  function ReadForm(r: Cursor): (res: Result<Parsed>)
    decreases r.Remaining(), 1
    ensures res.Err? ==> res.error == NoToken
    ensures r.index >= |r.tokens| ==> res.Err?
    ensures res.Ok? ==>
      && r.index < |r.tokens|
      && res.value.rest.tokens == r.tokens
      && r.index < res.value.rest.index <= |r.tokens|
      && (res.value.form.List? <==> r.tokens[r.index].text == "(")
    ensures r.index < |r.tokens| && r.tokens[r.index].text != "(" ==>
      res == Ok(Parsed(Atom(r.tokens[r.index]), r.Next()))
  {
    if r.index >= |r.tokens| then Err(NoToken)
    else if r.tokens[r.index].text == "(" then ReadList(r)
    else ReadAtom(r)
  }

  /** Reads the token under the cursor as an atom. */
  function ReadAtom(r: Cursor): (res: Result<Parsed>)
    ensures res.Ok? <==> r.index < |r.tokens|
    ensures res.Ok? ==> res.value.form == Atom(r.tokens[r.index]) && res.value.rest == r.Next()
    ensures res.Err? ==> res.error == NoToken
  {
    match r.Current()
    case None => Err(NoToken)
    case Some(t) => Ok(Parsed(Atom(t), r.Next()))
  }

  /** Reads a list whose opening token is under the cursor. */
  function ReadList(r: Cursor): (res: Result<Parsed>)
    decreases r.Remaining(), 0
    ensures res.Err? ==> res.error == NoToken
    ensures res.Ok? ==>
      && r.index < |r.tokens|
      && res.value.form.List?
      && res.value.form.list.start == Some(r.tokens[r.index])
      && res.value.rest.tokens == r.tokens
      && r.index + 2 <= res.value.rest.index <= |r.tokens|
      && r.tokens[res.value.rest.index - 1].text == ")"
      && res.value.form.list.end == Some(r.tokens[res.value.rest.index - 1])
  {
    if r.index >= |r.tokens| then Err(NoToken)
    else ReadMembers(EmptyList.Begin(r.tokens[r.index]), r.Next())
  }

  /** The loop of `ReadList`: appends forms to `acc` until the current token
      is `)`, then closes the list with that token and steps past it. */
  function ReadMembers(acc: MalList, r: Cursor): (res: Result<Parsed>)
    decreases r.Remaining(), 2
    ensures res.Err? ==> res.error == NoToken
    ensures res.Ok? ==>
      && res.value.form.List?
      && res.value.form.list.start == acc.start
      && |acc.members| <= |res.value.form.list.members|
      && res.value.form.list.members[..|acc.members|] == acc.members
      && res.value.rest.tokens == r.tokens
      && r.index < res.value.rest.index <= |r.tokens|
      && r.tokens[res.value.rest.index - 1].text == ")"
      && res.value.form.list.end == Some(r.tokens[res.value.rest.index - 1])
  {
    if r.index >= |r.tokens| then Err(NoToken)
    else if r.tokens[r.index].text == ")" then
      Ok(Parsed(List(acc.Close(r.tokens[r.index])), r.Next()))
    else
      match ReadForm(r)
      case Err(e) => Err(e)
      case Ok(p) => ReadMembers(acc.Append(p.form), p.rest)
  }

  /** Reads the first form of a source text; tokens after it are ignored.
      Reading succeeds exactly when the text has a token and, when that token
      is `(`, the brackets after it close. */
  function ReadString(s: string): (res: Result<Form>)
    ensures res.Ok? <==>
      |Lexer.Tokenize(s)| > 0 && (Lexer.Tokenize(s)[0].text == "(" ==> MatchingClose(Lexer.Tokenize(s), 1, 1).Some?)
    ensures res.Err? ==> res.error == NoToken
    ensures res.Ok? ==> |Lexer.Tokenize(s)| > 0
    ensures |Lexer.Tokenize(s)| > 0 && Lexer.Tokenize(s)[0].text != "(" ==> res == Ok(Atom(Lexer.Tokenize(s)[0]))
  {
    ReadFormMatchesBrackets(Lexer.Tokenize(s), 0);
    var p :- ReadForm(Cursor(Lexer.Tokenize(s), 0));
    Ok(p.form)
  }

  // ---------------------------------------------------------------------
  // A reference for when reading succeeds: bracket depth.

  /** The index of the `)` that brings the bracket depth, `depth` at `i`, down
      to zero; None when the tokens run out first. Every `(` opens one level
      and every `)` closes one; other tokens leave the depth alone. */
  function MatchingClose(t: seq<Token>, i: nat, depth: nat): (k: Option<nat>)
    requires depth >= 1
    ensures k.Some? ==> i <= k.value < |t| && t[k.value].text == ")"
    decreases |t| - i
  {
    if i >= |t| then None
    else if t[i].text == ")" then (if depth == 1 then Some(i) else MatchingClose(t, i + 1, depth - 1))
    else if t[i].text == "(" then MatchingClose(t, i + 1, depth + 1)
    else MatchingClose(t, i + 1, depth)
  }

  /** Closing `depth + 1` levels is closing one level and then `depth` more. */
  lemma {:induction false} MatchingCloseSplit(t: seq<Token>, i: nat, depth: nat)
    requires depth >= 1
    ensures MatchingClose(t, i, depth + 1) ==
      match MatchingClose(t, i, 1)
      case None => None
      case Some(k) => MatchingClose(t, k + 1, depth)
    decreases |t| - i
  {
    if i >= |t| {
    } else if t[i].text == ")" {
    } else if t[i].text == "(" {
      MatchingCloseSplit(t, i + 1, depth + 1);
      MatchingCloseSplit(t, i + 1, 1);
      match MatchingClose(t, i + 1, 1)
      case None =>
      case Some(k) =>
        MatchingCloseSplit(t, k + 1, depth);
    } else {
      MatchingCloseSplit(t, i + 1, depth);
    }
  }

  /** The member loop succeeds exactly when the brackets from the cursor on
      close one level, and it stops one past that closing token. */
  lemma {:induction false} ReadMembersMatchesBrackets(acc: MalList, t: seq<Token>, i: nat)
    ensures ReadMembers(acc, Cursor(t, i)).Ok? <==> MatchingClose(t, i, 1).Some?
    ensures ReadMembers(acc, Cursor(t, i)).Ok? ==>
      ReadMembers(acc, Cursor(t, i)).value.rest.index == MatchingClose(t, i, 1).value + 1
    decreases |t| - i, 2
  {
    if i < |t| && t[i].text != ")" {
      ReadMembersBracketsStep(acc, t, i);
    }
  }

  /** One turn of the member loop, against the bracket depth: the form read
      is skipped by the depth count too. */
  lemma {:induction false} ReadMembersBracketsStep(acc: MalList, t: seq<Token>, i: nat)
    requires i < |t| && t[i].text != ")"
    ensures ReadMembers(acc, Cursor(t, i)).Ok? <==> MatchingClose(t, i, 1).Some?
    ensures ReadMembers(acc, Cursor(t, i)).Ok? ==>
      ReadMembers(acc, Cursor(t, i)).value.rest.index == MatchingClose(t, i, 1).value + 1
    decreases |t| - i, 1
  {
    ReadFormMatchesBrackets(t, i);
    MatchingCloseStep(t, i);
    match ReadForm(Cursor(t, i))
    case Err(_) =>
    case Ok(p) =>
      ReadMembersStep(acc, t, i);
      assert p.rest == Cursor(t, p.rest.index);
      ReadMembersMatchesBrackets(acc.Append(p.form), t, p.rest.index);
  }

  /** The depth count over a token other than `)`: past an atom, or past a
      whole bracketed group. */
  lemma MatchingCloseStep(t: seq<Token>, i: nat)
    requires i < |t| && t[i].text != ")"
    ensures t[i].text != "(" ==> MatchingClose(t, i, 1) == MatchingClose(t, i + 1, 1)
    ensures t[i].text == "(" ==>
      MatchingClose(t, i, 1) ==
        (match MatchingClose(t, i + 1, 1)
         case None => None
         case Some(k) => MatchingClose(t, k + 1, 1))
  {
    if t[i].text == "(" {
      MatchingCloseSplit(t, i + 1, 1);
    }
  }

  /** Reading a form succeeds exactly when there is a token under the cursor
      and, if that token is `(`, the brackets after it close; a list read ends
      one past its matching `)`. */
  lemma {:induction false} ReadFormMatchesBrackets(t: seq<Token>, i: nat)
    ensures i >= |t| ==> ReadForm(Cursor(t, i)).Err?
    ensures i < |t| && t[i].text != "(" ==> ReadForm(Cursor(t, i)) == Ok(Parsed(Atom(t[i]), Cursor(t, i + 1)))
    ensures i < |t| && t[i].text == "(" ==>
      (ReadForm(Cursor(t, i)).Ok? <==> MatchingClose(t, i + 1, 1).Some?)
    ensures i < |t| && t[i].text == "(" && ReadForm(Cursor(t, i)).Ok? ==>
      ReadForm(Cursor(t, i)).value.rest.index == MatchingClose(t, i + 1, 1).value + 1
    decreases |t| - i, 0
  {
    if i < |t| && t[i].text == "(" {
      ReadMembersMatchesBrackets(EmptyList.Begin(t[i]), t, i + 1);
    }
  }

  // ---------------------------------------------------------------------
  // Forms keep their source tokens.

  function OptionTokens(o: Option<Token>): seq<Token> {
    match o
    case None => []
    case Some(t) => [t]
  }

  /** The source tokens a read form holds, in order: an atom's one token, and
      a list's opening token, its members' tokens and its closing token. */
  function SourceTokens(f: Form): seq<Token> {
    match f
    case Atom(t) => [t]
    case List(l) => ListTokens(l)
    case _ => []
  }

  function ListTokens(l: MalList): seq<Token> {
    OptionTokens(l.start) + MembersTokens(l.members) + OptionTokens(l.end)
  }

  function MembersTokens(ms: seq<Form>): seq<Token> {
    if ms == [] then [] else SourceTokens(ms[0]) + MembersTokens(ms[1..])
  }

  lemma {:induction false} MembersTokensAppend(ms: seq<Form>, x: Form)
    ensures MembersTokens(ms + [x]) == MembersTokens(ms) + SourceTokens(x)
  {
    if ms == [] {
      assert [x][1..] == [];
    } else {
      assert (ms + [x])[1..] == ms[1..] + [x];
      MembersTokensAppend(ms[1..], x);
    }
  }

  /** The member loop's list holds, after the accumulator's tokens, exactly
      the tokens it consumed. */
  lemma {:induction false} ReadMembersSourceTokens(acc: MalList, t: seq<Token>, i: nat)
    requires acc.end == None
    requires ReadMembers(acc, Cursor(t, i)).Ok?
    ensures var p := ReadMembers(acc, Cursor(t, i)).value;
      ListTokens(p.form.list) == OptionTokens(acc.start) + MembersTokens(acc.members) + t[i..p.rest.index]
    decreases |t| - i, 2
  {
    if t[i].text == ")" {
      var q := ReadMembers(acc, Cursor(t, i)).value;
      assert q.form.list == acc.Close(t[i]) && q.rest.index == i + 1;
      assert t[i..i + 1] == [t[i]];
    } else {
      ReadMembersSourceTokensStep(acc, t, i);
    }
  }

  /** One turn of the member loop adds the tokens of the form it reads. */
  lemma {:induction false} ReadMembersSourceTokensStep(acc: MalList, t: seq<Token>, i: nat)
    requires acc.end == None
    requires i < |t| && t[i].text != ")"
    requires ReadMembers(acc, Cursor(t, i)).Ok?
    ensures var p := ReadMembers(acc, Cursor(t, i)).value;
      ListTokens(p.form.list) == OptionTokens(acc.start) + MembersTokens(acc.members) + t[i..p.rest.index]
    decreases |t| - i, 1
  {
    ReadMembersStep(acc, t, i);
    var p := ReadForm(Cursor(t, i)).value;
    var j := p.rest.index;
    var acc' := acc.Append(p.form);
    var k := ReadMembers(acc', Cursor(t, j)).value.rest.index;
    ReadFormSourceTokens(t, i);
    MembersTokensAppend(acc.members, p.form);
    ReadMembersSourceTokens(acc', t, j);
    TokensChain(ListTokens(ReadMembers(acc', Cursor(t, j)).value.form.list), OptionTokens(acc.start),
                MembersTokens(acc.members), MembersTokens(acc'.members), t[i..j], t[j..k]);
    SliceSplit(t, i, j, k);
  }

  /** A slice is its two halves joined. */
  lemma SliceSplit(t: seq<Token>, i: nat, j: nat, k: nat)
    requires i <= j <= k <= |t|
    ensures t[i..k] == t[i..j] + t[j..k]
  {
  }

  /** The token sequences of one more turn of the member loop, as sequence
      algebra. */
  lemma TokensChain(x: seq<Token>, a: seq<Token>, m: seq<Token>, m': seq<Token>, t1: seq<Token>, t2: seq<Token>)
    requires x == a + m' + t2 && m' == m + t1
    ensures x == a + m + (t1 + t2)
  {
  }

  /** One turn of the member loop on a token other than `)`, when the loop
      or the form under the cursor is read successfully. */
  lemma ReadMembersStep(acc: MalList, t: seq<Token>, i: nat)
    requires i < |t| && t[i].text != ")"
    requires ReadMembers(acc, Cursor(t, i)).Ok? || ReadForm(Cursor(t, i)).Ok?
    ensures ReadForm(Cursor(t, i)).Ok?
    ensures var p := ReadForm(Cursor(t, i)).value;
      ReadMembers(acc, Cursor(t, i)) == ReadMembers(acc.Append(p.form), Cursor(t, p.rest.index))
  {
  }

  /** Every form read holds exactly the tokens it was read from, in order:
      nothing is dropped, repeated or reordered. */
  lemma {:induction false} ReadFormSourceTokens(t: seq<Token>, i: nat)
    requires ReadForm(Cursor(t, i)).Ok?
    ensures SourceTokens(ReadForm(Cursor(t, i)).value.form) == t[i..ReadForm(Cursor(t, i)).value.rest.index]
    decreases |t| - i, 0
  {
    if t[i].text == "(" {
      var start := EmptyList.Begin(t[i]);
      var p := ReadForm(Cursor(t, i)).value;
      assert ReadForm(Cursor(t, i)) == ReadMembers(start, Cursor(t, i + 1));
      ReadMembersSourceTokens(start, t, i + 1);
      assert SourceTokens(p.form) == [t[i]] + [] + t[i + 1..p.rest.index];
      assert t[i..p.rest.index] == [t[i]] + t[i + 1..p.rest.index];
    } else {
      assert t[i..i + 1] == [t[i]];
    }
  }

  // ---------------------------------------------------------------------
  // Tokens after the first form do not matter.

  lemma {:induction false} ReadMembersIgnoresTrailing(acc: MalList, t: seq<Token>, u: seq<Token>, i: nat)
    requires ReadMembers(acc, Cursor(t, i)).Ok?
    ensures var p := ReadMembers(acc, Cursor(t, i)).value;
      ReadMembers(acc, Cursor(t + u, i)) == Ok(Parsed(p.form, Cursor(t + u, p.rest.index)))
    decreases |t| - i, 1
  {
    var r := Cursor(t, i);
    var r' := Cursor(t + u, i);
    assert (t + u)[i] == t[i];
    if t[i].text != ")" {
      var p := ReadForm(r).value;
      ReadFormIgnoresTrailing(t, u, i);
      assert ReadForm(r') == Ok(Parsed(p.form, Cursor(t + u, p.rest.index)));
      ReadMembersIgnoresTrailing(acc.Append(p.form), t, u, p.rest.index);
    }
  }

  /** Reading a form from a token sequence gives the same form, ending at the
      same index, when more tokens follow: the reader never looks past the
      end of the form it reads. */
  lemma {:induction false} ReadFormIgnoresTrailing(t: seq<Token>, u: seq<Token>, i: nat)
    requires ReadForm(Cursor(t, i)).Ok?
    ensures var p := ReadForm(Cursor(t, i)).value;
      ReadForm(Cursor(t + u, i)) == Ok(Parsed(p.form, Cursor(t + u, p.rest.index)))
    decreases |t| - i, 0
  {
    assert (t + u)[i] == t[i];
    if t[i].text == "(" {
      ReadMembersIgnoresTrailing(EmptyList.Begin(t[i]), t, u, i + 1);
    }
  }

  /** A source text's form is made of a prefix of the text's tokens: the
      first form, with whatever tokens follow it left unread. */
  lemma ReadStringPrefix(s: string)
    requires ReadString(s).Ok?
    ensures SourceTokens(ReadString(s).value) <= Lexer.Tokenize(s)
  {
    ReadFormSourceTokens(Lexer.Tokenize(s), 0);
  }
}

=== FILE: roundtrip.dfy ===
/** Printing and reading back. A tree of atoms and lists whose atoms are
    plain symbol text prints to a string that the tokenizer splits into the
    tree's own token texts, and that the reader turns back into a tree of the
    same shape: reading is a left inverse of printing on such trees, and
    printing what was read reproduces the printed text. The tokens the reader
    attaches (offsets, the delimiting parentheses) are new, so the two trees
    agree in shape rather than in every field. */
module RoundTrip {
  import opened Types
  import opened Lexer
  import Reader
  import Printer

  // ---------------------------------------------------------------------
  // The trees the round trip covers.

  /** Atom text that lexes as one run token of its own: non-empty, made of
      run characters, and not starting with a structural character (which
      would split off as a token of its own). */
  predicate PlainText(t: string) {
    && |t| >= 1
    && !IsStructural(t[0])
    && forall k :: 0 <= k < |t| ==> IsRunChar(t[k])
  }

  /** Atoms with plain text, and lists of such trees. */
  predicate Plain(f: Form)
    decreases f, 1
  {
    match f
    case Atom(t) => PlainText(t.text)
    case List(l) => PlainAll(l.members)
    case _ => false
  }

  predicate PlainAll(ms: seq<Form>)
    decreases ms, 0
  {
    ms == [] || (Plain(ms[0]) && PlainAll(ms[1..]))
  }

  /** The printed text of a plain tree, written directly: an atom's text, or
      the members' texts joined by single spaces inside parentheses. */
  function Text(f: Form): string
    decreases f, 1
  {
    match f
    case Atom(t) => t.text
    case List(l) => "(" + TextAll(l.members) + ")"
    case _ => ""
  }

  function TextAll(ms: seq<Form>): string
    decreases ms, 0
  {
    if ms == [] then ""
    else if |ms| == 1 then Text(ms[0])
    else Text(ms[0]) + " " + TextAll(ms[1..])
  }

  /** What printing and reading preserve: atom texts and list nesting. */
  datatype Shape = Leaf(text: string) | Node(children: seq<Shape>) | Other(form: Form)

  function ShapeOf(f: Form): Shape
    decreases f, 1
  {
    match f
    case Atom(t) => Leaf(t.text)
    case List(l) => Node(Shapes(l.members))
    case _ => Other(f)
  }

  function Shapes(ms: seq<Form>): (r: seq<Shape>)
    decreases ms, 0
    ensures |r| == |ms|
  {
    if ms == [] then [] else [ShapeOf(ms[0])] + Shapes(ms[1..])
  }

  /** The token texts of a tree, in source order. */
  function Flatten(f: Form): seq<string>
    decreases f, 1
  {
    match f
    case Atom(t) => [t.text]
    case List(l) => ["("] + FlattenAll(l.members) + [")"]
    case _ => []
  }

  function FlattenAll(ms: seq<Form>): seq<string>
    decreases ms, 0
  {
    if ms == [] then [] else Flatten(ms[0]) + FlattenAll(ms[1..])
  }

  /** The texts of a token sequence. */
  function Texts(toks: seq<Token>): (r: seq<string>)
    ensures |r| == |toks|
  {
    seq(|toks|, i requires 0 <= i < |toks| => toks[i].text)
  }

  // ---------------------------------------------------------------------
  // Printing a plain tree.

  /** The printer writes a plain tree's text. */
  lemma {:induction false} PrintedText(f: Form)
    requires Plain(f)
    ensures Printer.PrintObject(f) == Some(Text(f))
    decreases f, 1
  {
    if f.List? {
      PrintedTextAll(f.list.members);
    }
  }

  lemma {:induction false} PrintedTextAll(ms: seq<Form>)
    requires PlainAll(ms)
    ensures Printer.JoinSpaced(Printer.PrintAll(ms)) == TextAll(ms)
    decreases ms, 0
  {
    if ms != [] {
      var parts := Printer.PrintAll(ms);
      assert parts == [Printer.Joined(Printer.PrintObject(ms[0]))] + Printer.PrintAll(ms[1..]);
      PrintedText(ms[0]);
      PrintedTextAll(ms[1..]);
      if |ms| >= 2 {
        assert parts[1..] == Printer.PrintAll(ms[1..]);
      }
    }
  }

  /** The first token text of a plain tree is `(` exactly for lists, and is
      never `)`. */
  lemma FlattenHead(f: Form)
    requires Plain(f)
    ensures |Flatten(f)| >= 1
    ensures Flatten(f)[0] != ")"
    ensures Flatten(f)[0] == "(" <==> f.List?
  {
    if f.Atom? {
      var t := f.token.text;
      assert IsRunChar(t[0]);
    }
  }

  // ---------------------------------------------------------------------
  // Where a printed tree sits in a text.

  /** The length of a plain tree's text. */
  function Width(f: Form): nat
    decreases f, 1
  {
    match f
    case Atom(t) => |t.text|
    case List(l) => WidthAll(l.members) + 2
    case _ => 0
  }

  function WidthAll(ms: seq<Form>): nat
    decreases ms, 0
  {
    if ms == [] then 0
    else if |ms| == 1 then Width(ms[0])
    else Width(ms[0]) + 1 + WidthAll(ms[1..])
  }

  /** The text `x` occurs in `s` at `p`. */
  predicate At(s: string, p: nat, x: string) {
    p + |x| <= |s| && s[p..p + |x|] == x
  }

  /** The text of plain tree `f` occurs in `s` at `p`, described position by
      position: a plain atom text, or `(`, the members and `)`. */
  predicate PrintedAt(s: string, p: nat, f: Form)
    decreases f, 1
  {
    match f
    case Atom(t) => PlainText(t.text) && At(s, p, t.text)
    case List(l) =>
      && p < |s| && s[p] == '('
      && MembersAt(s, p + 1, l.members)
      && p + 1 + WidthAll(l.members) < |s| && s[p + 1 + WidthAll(l.members)] == ')'
    case _ => false
  }

  /** The members' texts occur in `s` from `p` on, one space apart. */
  predicate MembersAt(s: string, p: nat, ms: seq<Form>)
    decreases ms, 0
  {
    ms == [] ||
    (&& PrintedAt(s, p, ms[0])
     && (|ms| >= 2 ==>
          && p + Width(ms[0]) < |s| && s[p + Width(ms[0])] == ' '
          && MembersAt(s, p + Width(ms[0]) + 1, ms[1..])))
  }

  /** Three texts in a row occur where their concatenation does. */
  lemma AtSplit(s: string, p: nat, a: string, b: string, c: string)
    requires At(s, p, a + b + c)
    ensures At(s, p, a) && At(s, p + |a|, b) && At(s, p + |a| + |b|, c)
  {
    var x := a + b + c;
    assert forall k :: 0 <= k < |x| ==> x[k] == s[p + k];
    assert s[p..p + |a|] == x[..|a|] == a;
    assert s[p + |a|..p + |a| + |b|] == x[|a|..|a| + |b|] == b;
    assert s[p + |a| + |b|..p + |x|] == x[|a| + |b|..] == c;
  }

  /** A non-empty text at `p` starts with the character at `p`. */
  lemma AtChar(s: string, p: nat, x: string)
    requires At(s, p, x) && |x| >= 1
    ensures s[p] == x[0]
  {
    assert s[p..p + |x|][0] == s[p];
  }

  /** Where a plain tree's text occurs, the tree is placed there, and its
      text is as wide as `Width` says. */
  lemma {:induction false} TextPlaced(f: Form, s: string, p: nat)
    requires Plain(f) && At(s, p, Text(f))
    ensures PrintedAt(s, p, f) && |Text(f)| == Width(f)
    decreases f, 1
  {
    if f.List? {
      var ms := f.list.members;
      var j := TextAll(ms);
      AtSplit(s, p, "(", j, ")");
      AtChar(s, p, "(");
      AtChar(s, p + 1 + |j|, ")");
      TextAllPlaced(ms, s, p + 1);
    }
  }

  lemma {:induction false} TextAllPlaced(ms: seq<Form>, s: string, p: nat)
    requires PlainAll(ms) && At(s, p, TextAll(ms))
    ensures MembersAt(s, p, ms) && |TextAll(ms)| == WidthAll(ms)
    decreases ms, 0
  {
    if |ms| == 1 {
      TextPlaced(ms[0], s, p);
    } else if |ms| >= 2 {
      var head, tail := Text(ms[0]), TextAll(ms[1..]);
      assert TextAll(ms) == head + " " + tail;
      AtSplit(s, p, head, " ", tail);
      AtChar(s, p + |head|, " ");
      TextPlaced(ms[0], s, p);
      TextAllPlaced(ms[1..], s, p + |head| + 1);
    }
  }

  /** A placed plain tree starts with `(` or with a run character that is not
      structural, so a token of its own starts there. */
  lemma PlacedStart(f: Form, s: string, p: nat)
    requires PrintedAt(s, p, f)
    ensures p < |s| && (s[p] == '(' || (IsRunChar(s[p]) && !IsStructural(s[p])))
  {
    if f.Atom? {
      AtChar(s, p, f.token.text);
    }
  }

  // A note on the proof devices in this file. `TreePlaced`, `MembersPlaced`
  // and `Lexed` are `PrintedAt`, `MembersAt` and `Texts(TokenizeFrom(..))`
  // behind a step count that is not a literal, so the verifier does not
  // unfold them of its own accord; the `...Is` lemmas equate each with what
  // it wraps, and the proofs unfold only where they call those lemmas. The
  // `Chain...` and `SeqStep` lemmas are single steps of sequence algebra,
  // stated in the exact form their callers need. Neither kind models
  // anything of the interpreter.

  /** `PrintedAt` and `MembersAt` under names the proofs below handle
      without unfolding them; `TreePlacedIs` and `MembersPlacedIs` equate them. */
  predicate TreePlaced(s: string, p: nat, f: Form) {
    TreePlacedAfter(s, p, f, |s| + 1)
  }

  predicate TreePlacedAfter(s: string, p: nat, f: Form, steps: nat)
    decreases steps
  {
    if steps > 0 then TreePlacedAfter(s, p, f, steps - 1) else PrintedAt(s, p, f)
  }

  lemma TreePlacedIs(s: string, p: nat, f: Form)
    ensures TreePlaced(s, p, f) == PrintedAt(s, p, f)
  {
    TreePlacedAfterIs(s, p, f, |s| + 1);
  }

  lemma {:induction false} TreePlacedAfterIs(s: string, p: nat, f: Form, steps: nat)
    ensures TreePlacedAfter(s, p, f, steps) == PrintedAt(s, p, f)
    decreases steps
  {
    if steps > 0 {
      TreePlacedAfterIs(s, p, f, steps - 1);
    }
  }

  predicate MembersPlaced(s: string, p: nat, ms: seq<Form>) {
    MembersPlacedAfter(s, p, ms, |s| + 1)
  }

  predicate MembersPlacedAfter(s: string, p: nat, ms: seq<Form>, steps: nat)
    decreases steps
  {
    if steps > 0 then MembersPlacedAfter(s, p, ms, steps - 1) else MembersAt(s, p, ms)
  }

  lemma MembersPlacedIs(s: string, p: nat, ms: seq<Form>)
    ensures MembersPlaced(s, p, ms) == MembersAt(s, p, ms)
  {
    MembersPlacedAfterIs(s, p, ms, |s| + 1);
  }

  lemma {:induction false} MembersPlacedAfterIs(s: string, p: nat, ms: seq<Form>, steps: nat)
    ensures MembersPlacedAfter(s, p, ms, steps) == MembersAt(s, p, ms)
    decreases steps
  {
    if steps > 0 {
      MembersPlacedAfterIs(s, p, ms, steps - 1);
    }
  }

  // ---------------------------------------------------------------------
  // Lexing a printed tree.

  /** The token texts scanned from `p` (none past the end). Defined through a
      step count that depends on `s`, so that the proofs below handle it as a
      name and do not unfold the scanner; `LexedIs` equates the two. */
  function Lexed(s: string, p: nat): seq<string> {
    LexedAfter(s, p, |s| + 1)
  }

  function LexedAfter(s: string, p: nat, steps: nat): seq<string>
    decreases steps
  {
    if steps > 0 then LexedAfter(s, p, steps - 1)
    else if p <= |s| then Texts(TokenizeFrom(s, p))
    else []
  }

  lemma LexedIs(s: string, p: nat)
    requires p <= |s|
    ensures Lexed(s, p) == Texts(TokenizeFrom(s, p))
  {
    LexedAfterIs(s, p, |s| + 1);
  }

  lemma {:induction false} LexedAfterIs(s: string, p: nat, steps: nat)
    requires p <= |s|
    ensures LexedAfter(s, p, steps) == Texts(TokenizeFrom(s, p))
    decreases steps
  {
    if steps > 0 {
      LexedAfterIs(s, p, steps - 1);
    }
  }

  /** What follows a tree's text in a printed text: the end, the space
      before the next member, or the closing parenthesis of the enclosing
      list. */
  predicate Follower(s: string, e: nat) {
    e == |s| || (e < |s| && (s[e] == ' ' || s[e] == ')'))
  }

  /** Members' scan: the first member's texts, a skipped separator, the
      rest's texts and what follows. */
  lemma ChainCons(x0: seq<string>, first: seq<string>, x1: seq<string>, y1: seq<string>,
                  rest: seq<string>, x2: seq<string>, flat: seq<string>, y: seq<string>)
    requires x0 == first + x1 && x1 == y1 && y1 == rest + x2
    requires flat == first + rest && y == x2
    ensures x0 == flat + y
  {
  }

  lemma TextsCons(t: Token, rest: seq<Token>)
    ensures Texts([t] + rest) == [t.text] + Texts(rest)
  {
  }

  /** A scan from `p` where a token starts at `p` yields that token first. */
  lemma TokenizeStep(s: string, p: nat)
    requires p < |s| && !IsSeparator(s[p]) && TokenEnd(s, p) > p
    ensures Lexed(s, p) == [s[p..TokenEnd(s, p)]] + Lexed(s, TokenEnd(s, p))
  {
    var e := TokenEnd(s, p);
    LexedIs(s, p);
    LexedIs(s, e);
    assert TokenizeFrom(s, p) == [Token(s[p..e], p)] + TokenizeFrom(s, e);
    TextsCons(Token(s[p..e], p), TokenizeFrom(s, e));
  }

  /** A token starts at a parenthesis, which is a token of its own, and at a
      run character that is not structural. */
  lemma StartsToken(s: string, q: nat)
    requires q < |s| && (s[q] == '(' || s[q] == ')' || (IsRunChar(s[q]) && !IsStructural(s[q])))
    ensures !IsSeparator(s[q]) && TokenEnd(s, q) > q
    ensures s[q] == '(' || s[q] == ')' ==> TokenEnd(s, q) == q + 1
  {
  }

  /** A separator in front of a token does not change what is scanned. */
  lemma SkipOneSeparator(s: string, e: nat)
    requires e + 1 < |s| && IsSeparator(s[e]) && !IsSeparator(s[e + 1])
    requires TokenEnd(s, e + 1) > e + 1
    ensures Lexed(s, e) == Lexed(s, e + 1)
  {
    LexedIs(s, e);
    LexedIs(s, e + 1);
    assert SkipSeparators(s, e + 1) == e + 1;
    assert SkipSeparators(s, e) == e + 1;
  }

  /** Two or more placed members: the first, a space, and the rest. */
  lemma ConsParts(ms: seq<Form>, s: string, p: nat)
    requires |ms| >= 2 && MembersPlaced(s, p, ms) && Follower(s, p + WidthAll(ms))
    ensures TreePlaced(s, p, ms[0]) && Follower(s, p + Width(ms[0]))
    ensures p + Width(ms[0]) < |s| && s[p + Width(ms[0])] == ' '
    ensures TreePlaced(s, p + Width(ms[0]) + 1, ms[1])
    ensures MembersPlaced(s, p + Width(ms[0]) + 1, ms[1..])
    ensures WidthAll(ms) == Width(ms[0]) + 1 + WidthAll(ms[1..])
    ensures FlattenAll(ms) == Flatten(ms[0]) + FlattenAll(ms[1..])
  {
    var e := p + Width(ms[0]);
    MembersPlacedIs(s, p, ms);
    TreePlacedIs(s, p, ms[0]);
    MembersPlacedIs(s, e + 1, ms[1..]);
    assert ms[1..][0] == ms[1];
    TreePlacedIs(s, e + 1, ms[1]);
  }

  /** The space in front of a placed plain tree is skipped. */
  lemma SkipSpace(f: Form, s: string, e: nat)
    requires e < |s| && s[e] == ' ' && TreePlaced(s, e + 1, f)
    ensures Lexed(s, e) == Lexed(s, e + 1)
  {
    TreePlacedIs(s, e + 1, f);
    PlacedStart(f, s, e + 1);
    StartsToken(s, e + 1);
    SkipOneSeparator(s, e);
  }

  /** The run starting at `p` ends at `b` when everything before `b` is a
      run character and `b` is not. */
  lemma {:induction false} RunEndAt(s: string, p: nat, b: nat)
    requires p <= b <= |s|
    requires forall k :: p <= k < b ==> IsRunChar(s[k])
    requires b == |s| || !IsRunChar(s[b])
    ensures RunEnd(s, p) == b
    decreases b - p
  {
    if p < b {
      RunEndAt(s, p + 1, b);
    }
  }

  /** A parenthesis is a token of its own. */
  lemma ParenToken(s: string, q: nat, x: string)
    requires x == "(" || x == ")"
    requires q < |s| && s[q] == x[0]
    ensures Lexed(s, q) == [x] + Lexed(s, q + 1)
  {
    StartsToken(s, q);
    TokenizeStep(s, q);
    assert s[q..q + 1] == x;
  }

  /** A plain atom text scans as one token. */
  lemma LexAtom(text: string, s: string, p: nat)
    requires PlainText(text) && At(s, p, text) && Follower(s, p + |text|)
    ensures Lexed(s, p) == [text] + Lexed(s, p + |text|)
  {
    var n := |text|;
    assert forall k :: 0 <= k < n ==> text[k] == s[p + k];
    assert p + n == |s| || !IsRunChar(s[p + n]);
    StartsToken(s, p);
    RunEndAt(s, p, p + n);
    assert TokenEnd(s, p) == p + n;
    TokenizeStep(s, p);
  }

  /** Where a plain tree is placed, followed by something that cannot
      continue a run, scanning from its start yields the tree's token texts
      and then whatever scanning from its end yields. */
  lemma {:induction false} LexPlain(f: Form, s: string, p: nat)
    requires TreePlaced(s, p, f) && Follower(s, p + Width(f))
    ensures Lexed(s, p) == Flatten(f) + Lexed(s, p + Width(f))
    decreases f, 2
  {
    PlacedShape(f, s, p);
    if f.Atom? {
      AtomParts(f, s, p);
      LexAtom(f.token.text, s, p);
    } else {
      ListParts(f, s, p);
      var ms := f.list.members;
      var c := p + 1 + WidthAll(ms);
      ParenToken(s, p, "(");
      LexMembers(ms, s, p + 1);
      ParenToken(s, c, ")");
      ChainList(Lexed(s, p), Lexed(s, p + 1), Lexed(s, c), Lexed(s, c + 1), FlattenAll(ms), Flatten(f), Lexed(s, p + Width(f)));
    }
  }

  /** A list's scan: `(`, the members' texts, `)` and what follows. */
  lemma ChainList(x0: seq<string>, x1: seq<string>, x2: seq<string>, x3: seq<string>,
                  m: seq<string>, flat: seq<string>, y: seq<string>)
    requires x0 == ["("] + x1 && x1 == m + x2 && x2 == [")"] + x3
    requires flat == ["("] + m + [")"] && y == x3
    ensures x0 == flat + y
  {
  }

  /** Only atoms and lists are placed. */
  lemma PlacedShape(f: Form, s: string, p: nat)
    requires TreePlaced(s, p, f)
    ensures f.Atom? || f.List?
  {
    TreePlacedIs(s, p, f);
  }

  /** A placed atom: its plain text at `p`. */
  lemma AtomParts(f: Form, s: string, p: nat)
    requires TreePlaced(s, p, f) && f.Atom?
    ensures PlainText(f.token.text) && At(s, p, f.token.text)
    ensures Width(f) == |f.token.text| && Flatten(f) == [f.token.text]
  {
    TreePlacedIs(s, p, f);
  }

  /** A placed list: `(`, its placed members and `)`. */
  lemma ListParts(f: Form, s: string, p: nat)
    requires TreePlaced(s, p, f) && f.List?
    ensures p < |s| && s[p] == "("[0]
    ensures MembersPlaced(s, p + 1, f.list.members)
    ensures p + 1 + WidthAll(f.list.members) < |s| && s[p + 1 + WidthAll(f.list.members)] == ")"[0]
    ensures Width(f) == WidthAll(f.list.members) + 2
    ensures Flatten(f) == ["("] + FlattenAll(f.list.members) + [")"]
  {
    TreePlacedIs(s, p, f);
    MembersPlacedIs(s, p + 1, f.list.members);
  }

  /** TreePlaced plain members, followed by something that cannot continue a
      run, scan to their token texts in order. */
  lemma {:induction false} LexMembers(ms: seq<Form>, s: string, p: nat)
    requires MembersPlaced(s, p, ms) && Follower(s, p + WidthAll(ms))
    ensures Lexed(s, p) == FlattenAll(ms) + Lexed(s, p + WidthAll(ms))
    decreases ms, 1
  {
    if ms == [] {
      assert FlattenAll(ms) + Lexed(s, p) == Lexed(s, p);
    } else if |ms| == 1 {
      MembersPlacedIs(s, p, ms);
      TreePlacedIs(s, p, ms[0]);
      assert FlattenAll(ms[1..]) == [];
      assert FlattenAll(ms) == Flatten(ms[0]);
      LexPlain(ms[0], s, p);
    } else {
      LexMembersCons(ms, s, p);
    }
  }

  /** Two or more members: the first, a space, and the rest. */
  lemma {:induction false} LexMembersCons(ms: seq<Form>, s: string, p: nat)
    requires |ms| >= 2 && MembersPlaced(s, p, ms) && Follower(s, p + WidthAll(ms))
    ensures Lexed(s, p) == FlattenAll(ms) + Lexed(s, p + WidthAll(ms))
    decreases ms, 0
  {
    var e := p + Width(ms[0]);
    ConsParts(ms, s, p);
    LexPlain(ms[0], s, p);
    SkipSpace(ms[1], s, e);
    LexMembers(ms[1..], s, e + 1);
    ChainCons(Lexed(s, p), Flatten(ms[0]), Lexed(s, e), Lexed(s, e + 1), FlattenAll(ms[1..]),
              Lexed(s, e + 1 + WidthAll(ms[1..])), FlattenAll(ms), Lexed(s, p + WidthAll(ms)));
  }

  // ---------------------------------------------------------------------
  // Reading the token texts of a tree.

  /** The tokens of `t` from `i` on begin with the texts `xs`. */
  predicate TextsAt(t: seq<Token>, i: nat, xs: seq<string>) {
    i + |xs| <= |t| && forall k :: 0 <= k < |xs| ==> t[i + k].text == xs[k]
  }

  lemma TextsAtSplit(t: seq<Token>, i: nat, a: seq<string>, b: seq<string>)
    requires TextsAt(t, i, a + b)
    ensures TextsAt(t, i, a) && TextsAt(t, i + |a|, b)
  {
    forall k | 0 <= k < |a|
      ensures t[i + k].text == a[k]
    {
      assert (a + b)[k] == a[k];
    }
    forall k | 0 <= k < |b|
      ensures t[i + |a| + k].text == b[k]
    {
      assert (a + b)[|a| + k] == b[k];
    }
  }

  lemma {:induction false} ShapesAppend(ms: seq<Form>, x: Form)
    ensures Shapes(ms + [x]) == Shapes(ms) + [ShapeOf(x)]
  {
    if ms == [] {
      assert ms + [x] == [x];
    } else {
      assert (ms + [x])[1..] == ms[1..] + [x];
      ShapesAppend(ms[1..], x);
    }
  }

  /** Tokens carrying the texts of a plain tree read back as a tree of the
      same shape, consuming exactly those tokens. */
  lemma {:induction false} ReadPlain(f: Form, t: seq<Token>, i: nat)
    requires Plain(f) && TextsAt(t, i, Flatten(f))
    ensures Reader.ReadForm(Reader.Cursor(t, i)).Ok?
    ensures ShapeOf(Reader.ReadForm(Reader.Cursor(t, i)).value.form) == ShapeOf(f)
    ensures Reader.ReadForm(Reader.Cursor(t, i)).value.rest.index == i + |Flatten(f)|
    decreases f, 1
  {
    FlattenHead(f);
    if f.List? {
      var ms := f.list.members;
      var start := EmptyList.Begin(t[i]);
      assert Flatten(f) == ["("] + (FlattenAll(ms) + [")"]);
      TextsAtSplit(t, i, ["("], FlattenAll(ms) + [")"]);
      assert Reader.ReadForm(Reader.Cursor(t, i)) == Reader.ReadMembers(start, Reader.Cursor(t, i + 1));
      ReadMembersPlain(start, ms, t, i + 1);
    }
  }

  /** The member loop at `)` closes the list and steps past it. */
  lemma ReadMembersClose(acc: MalList, t: seq<Token>, i: nat)
    requires i < |t| && t[i].text == ")"
    ensures Reader.ReadMembers(acc, Reader.Cursor(t, i)).Ok?
    ensures Reader.ReadMembers(acc, Reader.Cursor(t, i)).value.form.list.members == acc.members
    ensures Reader.ReadMembers(acc, Reader.Cursor(t, i)).value.rest.index == i + 1
  {
  }

  /** The token texts of two or more plain members and a `)`: the first
      member's, then the rest's. */
  lemma ConsTexts(ms: seq<Form>, t: seq<Token>, i: nat)
    requires ms != [] && PlainAll(ms) && TextsAt(t, i, FlattenAll(ms) + [")"])
    ensures Plain(ms[0]) && PlainAll(ms[1..])
    ensures TextsAt(t, i, Flatten(ms[0]))
    ensures TextsAt(t, i + |Flatten(ms[0])|, FlattenAll(ms[1..]) + [")"])
    ensures i < |t| && t[i].text != ")"
    ensures |FlattenAll(ms)| == |Flatten(ms[0])| + |FlattenAll(ms[1..])|
  {
    var head := Flatten(ms[0]);
    var tail := FlattenAll(ms[1..]) + [")"];
    assert FlattenAll(ms) + [")"] == head + tail;
    TextsAtSplit(t, i, head, tail);
    FlattenHead(ms[0]);
    assert t[i + 0].text == head[0];
  }

  /** Shapes after appending one read form and the rest. */
  lemma ShapesStep(acc: seq<Form>, x: Form, ms: seq<Form>)
    requires ms != [] && ShapeOf(x) == ShapeOf(ms[0])
    ensures Shapes(acc + [x]) + Shapes(ms[1..]) == Shapes(acc) + Shapes(ms)
  {
    ShapesAppend(acc, x);
    ShapesCons(ms);
    SeqStep(Shapes(acc + [x]), Shapes(acc), ShapeOf(x), Shapes(ms), Shapes(ms[1..]));
  }

  lemma ShapesCons(ms: seq<Form>)
    requires ms != []
    ensures Shapes(ms) == [ShapeOf(ms[0])] + Shapes(ms[1..])
  {
  }

  /** Moving one element from the front of one part to the end of another. */
  lemma SeqStep<T>(a: seq<T>, b: seq<T>, x: T, m: seq<T>, tail: seq<T>)
    requires a == b + [x] && m == [x] + tail
    ensures a + tail == b + m
  {
  }

  /** The member loop over the texts of plain trees followed by `)` appends
      trees of the same shapes and stops one past the `)`. */
  lemma {:induction false} ReadMembersPlain(acc: MalList, ms: seq<Form>, t: seq<Token>, i: nat)
    requires PlainAll(ms)
    requires TextsAt(t, i, FlattenAll(ms) + [")"])
    ensures Reader.ReadMembers(acc, Reader.Cursor(t, i)).Ok?
    ensures Shapes(Reader.ReadMembers(acc, Reader.Cursor(t, i)).value.form.list.members) == Shapes(acc.members) + Shapes(ms)
    ensures Reader.ReadMembers(acc, Reader.Cursor(t, i)).value.rest.index == i + |FlattenAll(ms)| + 1
    decreases ms, 1
  {
    if ms == [] {
      assert FlattenAll(ms) + [")"] == [")"];
      assert t[i + 0].text == (FlattenAll(ms) + [")"])[0];
      ReadMembersClose(acc, t, i);
    } else {
      ReadMembersPlainCons(acc, ms, t, i);
    }
  }

  /** One or more members: the first is read as a tree of its shape, and the
      loop goes on with the rest. */
  lemma {:induction false} ReadMembersPlainCons(acc: MalList, ms: seq<Form>, t: seq<Token>, i: nat)
    requires ms != [] && PlainAll(ms)
    requires TextsAt(t, i, FlattenAll(ms) + [")"])
    ensures Reader.ReadMembers(acc, Reader.Cursor(t, i)).Ok?
    ensures Shapes(Reader.ReadMembers(acc, Reader.Cursor(t, i)).value.form.list.members) == Shapes(acc.members) + Shapes(ms)
    ensures Reader.ReadMembers(acc, Reader.Cursor(t, i)).value.rest.index == i + |FlattenAll(ms)| + 1
    decreases ms, 0
  {
    ConsTexts(ms, t, i);
    ReadPlain(ms[0], t, i);
    var p := Reader.ReadForm(Reader.Cursor(t, i)).value;
    var j := i + |Flatten(ms[0])|;
    assert p.rest == Reader.Cursor(t, j);
    Reader.ReadMembersStep(acc, t, i);
    ReadMembersPlain(acc.Append(p.form), ms[1..], t, j);
    ShapesStep(acc.members, p.form, ms);
  }

  // ---------------------------------------------------------------------
  // The round trip.

  /** The tokens of a printed plain tree are exactly its token texts. */
  lemma TokenizePrinted(f: Form)
    requires Plain(f)
    ensures Printer.PrintObject(f).Some?
    ensures Texts(Tokenize(Printer.PrintObject(f).value)) == Flatten(f)
  {
    PrintedText(f);
    TokenizeText(f);
  }

  lemma TokenizeText(f: Form)
    requires Plain(f)
    ensures Texts(Tokenize(Text(f))) == Flatten(f)
  {
    var s := Text(f);
    assert s[0..|s|] == s;
    TextPlaced(f, s, 0);
    TreePlacedIs(s, 0, f);
    LexPlain(f, s, 0);
    LexedWhole(s);
  }

  /** Scanning a whole text from its start, and nothing from its end. */
  lemma LexedWhole(s: string)
    ensures Texts(Tokenize(s)) == Lexed(s, 0)
    ensures Lexed(s, |s|) == []
  {
    LexedIs(s, 0);
    LexedIs(s, |s|);
    assert SkipSeparators(s, |s|) == |s|;
    assert TokenizeFrom(s, |s|) == [];
  }

  /** Reading what was printed succeeds and gives back the tree's shape. */
  lemma PrintReadShape(f: Form)
    requires Plain(f)
    ensures Printer.PrintObject(f).Some?
    ensures Reader.ReadString(Printer.PrintObject(f).value).Ok?
    ensures ShapeOf(Reader.ReadString(Printer.PrintObject(f).value).value) == ShapeOf(f)
  {
    var t := Tokenize(Printer.PrintObject(f).value);
    TokenizePrinted(f);
    ReadPlain(f, t, 0);
  }

  /** Trees of the same shape as a plain tree are plain and have its text. */
  lemma {:induction false} TextFollowsShape(f: Form, g: Form)
    requires Plain(f) && ShapeOf(g) == ShapeOf(f)
    ensures Plain(g) && Text(g) == Text(f)
    decreases f, 1
  {
    if f.List? {
      TextAllFollowsShapes(f.list.members, g.list.members);
    }
  }

  lemma {:induction false} TextAllFollowsShapes(ms: seq<Form>, ns: seq<Form>)
    requires PlainAll(ms) && Shapes(ns) == Shapes(ms)
    ensures PlainAll(ns) && TextAll(ns) == TextAll(ms)
    decreases ms, 0
  {
    if ms != [] {
      assert Shapes(ns)[0] == ShapeOf(ms[0]) && Shapes(ns)[1..] == Shapes(ms[1..]);
      TextFollowsShape(ms[0], ns[0]);
      TextAllFollowsShapes(ms[1..], ns[1..]);
    }
  }

  /** Printing what was read from a printed plain tree gives the same text
      again. */
  lemma PrintReadPrint(f: Form)
    requires Plain(f)
    ensures Printer.PrintObject(f).Some?
    ensures Reader.ReadString(Printer.PrintObject(f).value).Ok?
    ensures Printer.PrintObject(Reader.ReadString(Printer.PrintObject(f).value).value) == Printer.PrintObject(f)
  {
    PrintReadShape(f);
    var g := Reader.ReadString(Printer.PrintObject(f).value).value;
    TextFollowsShape(f, g);
    PrintedText(f);
    PrintedText(g);
  }

  /** A printed string reads back as the one atom holding the whole encoded
      text. */
  lemma PrintReadString(v: string)
    ensures Printer.PrintObject(Str(v)).Some?
    ensures Reader.ReadString(Printer.PrintObject(Str(v)).value) ==
      Ok(Atom(Token(Printer.EncodeString(v), 0)))
  {
    Printer.EncodedLexesAsOneToken(v);
  }
}

=== FILE: types.dfy ===
/** The data model shared by the lexer, reader, printer and evaluator of the
    interpreter: tokens, the immutable list builder, forms, primitives and the
    errors that abort a read or an evaluation. */
module Types {

  datatype Option<+T> = None | Some(value: T)

  /** The ways a read or an evaluation can fail. */
  datatype Error =
    /** The cursor ran past the last token: the current token is undefined and
        reading its text throws. */
    | NoToken
    /** A symbol with no binding in the environment. */
    | UnboundSymbol(name: string)
    /** The evaluated head of a non-empty list is not a primitive; `text` is the
        rendered `string` property of that head. */
    | NotCallable(text: string)
    /** A primitive applied to fewer than two arguments. */
    | MissingArgument
    /** A primitive applied to an argument that is not an integer. */
    | NotANumber
    /** A primitive whose arithmetic is outside the model (floating division). */
    | Unmodelled(name: string)

  datatype Result<+T> = Ok(value: T) | Err(error: Error) {
    predicate IsFailure() { Err? }

    function PropagateFailure<U>(): Result<U>
      requires Err?
    {
      Err(error)
    }

    function Extract(): T
      requires Ok?
    {
      value
    }
  }

  /** A lexical token: its text and the offset in the source where that text
      starts. The length of a token is the length of its text. */
  datatype Token = Token(text: string, offset: nat) {
    function Length(): nat { |text| }

    /** The offset one past the token's last character. */
    function End(): nat { offset + |text| }
  }

  /** The four arithmetic primitives bound in the evaluator's environment. */
  datatype Prim = Add | Sub | Mul | Div

  /** A list under construction or finished: its members and the tokens that
      opened and closed it. Every operation returns a new value. */
  datatype MalList = MalList(members: seq<Form>, start: Option<Token>, end: Option<Token>) {

    /** The list with `x` added after the last member; delimiters are kept. */
    function Append(x: Form): (l: MalList)
      ensures |l.members| == |members| + 1
      ensures l.members[..|members|] == members && l.members[|members|] == x
      ensures l.start == start && l.end == end
    {
      MalList(members + [x], start, end)
    }

    /** The list with its opening token set; members are kept. */
    function Begin(t: Token): (l: MalList)
      ensures l.start == Some(t)
      ensures l.members == members && l.end == end
    {
      MalList(members, Some(t), end)
    }

    /** The list with its closing token set; members are kept. */
    function Close(t: Token): (l: MalList)
      ensures l.end == Some(t)
      ensures l.members == members && l.start == start
    {
      MalList(members, start, Some(t))
    }
  }

  /** The list a fresh builder starts from: no members, no delimiters. */
  const EmptyList := MalList([], None, None)

  /** One key and its current value, in the map's key order. */
  datatype MapEntry = MapEntry(key: Form, value: Form)

  datatype Form =
    /** A form read from a single token. */
    | Atom(token: Token)
    | Sym(name: string)
    | Int(value: int)
    | Str(text: string)
    | List(list: MalList)
    | Vector(members: seq<Form>)
    | HashMap(entries: seq<MapEntry>)
    /** A primitive function value, produced by looking up a symbol. */
    | Fn(op: Prim)

  /** The decimal text of a natural number, most significant digit first. */
  function NatToDecimal(n: nat): (s: string)
    ensures |s| > 0
    ensures forall i :: 0 <= i < |s| ==> '0' <= s[i] <= '9'
  {
    var d := ['0' + (n % 10) as char];
    if n < 10 then d else NatToDecimal(n / 10) + d
  }

  /** The decimal text of an integer, with a leading minus when negative. */
  function IntToDecimal(v: int): string {
    if v < 0 then "-" + NatToDecimal(-v) else NatToDecimal(v)
  }

  /** The number a string of decimal digits denotes, read left to right. */
  function DigitsValue(s: string): int {
    if s == [] then 0 else DigitsValue(s[..|s| - 1]) * 10 + (s[|s| - 1] as int - '0' as int)
  }

  /** The integer a decimal text denotes, with an optional leading minus. */
  function DecimalValue(s: string): int {
    if |s| > 0 && s[0] == '-' then -DigitsValue(s[1..]) else DigitsValue(s)
  }

  lemma {:induction false} NatToDecimalValue(n: nat)
    ensures DigitsValue(NatToDecimal(n)) == n
    ensures NatToDecimal(n)[0] != '-'
  {
    var d := ['0' + (n % 10) as char];
    if n >= 10 {
      var h := NatToDecimal(n / 10);
      NatToDecimalValue(n / 10);
      assert (h + d)[..|h + d| - 1] == h;
    }
  }

  /** The decimal text of an integer denotes that integer. */
  lemma IntToDecimalValue(v: int)
    ensures DecimalValue(IntToDecimal(v)) == v
  {
    if v < 0 {
      NatToDecimalValue(-v);
      assert ("-" + NatToDecimal(-v))[1..] == NatToDecimal(-v);
    } else {
      NatToDecimalValue(v);
    }
  }

  /** The `string` property of a form, None where the form has none: an atom
      has its token's text, a symbol its name and an integer the decimal text
      of its value; other forms have no such property. */
  function StringProperty(f: Form): (p: Option<string>)
    ensures p.Some? <==> f.Atom? || f.Sym? || f.Int?
    ensures f.Atom? ==> p == Some(f.token.text)
    ensures f.Sym? ==> p == Some(f.name)
    ensures f.Int? ==> p.Some? && DecimalValue(p.value) == f.value
  {
    match f
    case Atom(t) => Some(t.text)
    case Sym(name) => Some(name)
    case Int(v) => IntToDecimalValue(v); Some(IntToDecimal(v))
    case _ => None
  }

  /** How a template literal renders a property that may be undefined. */
  function Render(p: Option<string>): string {
    match p
    case Some(s) => s
    case None => "undefined"
  }
}
